=== FILE: README.md ===
# Markdown previewer: editor, preview, theme, toolbar and split-pane logic in Dafny

This project models the sequential logic of the MarkdownViewer web front end (a React
Markdown editor with a live preview) and proves properties of it. Everything is written
as immutable datatypes and pure functions over `seq<char>` and `real`. A Dafny `char` is a
Unicode scalar value, while JavaScript counts UTF-16 code units; `JsText.Utf16Length`
converts between the two, and every literal the editor writes lies in the Basic
Multilingual Plane, where one character is one unit.

| module | file | what it models |
|---|---|---|
| `Wrappers` | wrappers.dfy | `Option` and `Result` |
| `JsText` | jstext.dfy | the JavaScript string operations the editor calls: `substring` with clamping and swapped arguments, `trim`, `split('\n')`, `split(/\s+/)`, `toLowerCase` on key names |
| `EditorText` | editor_text.dfy | the splice and caret arithmetic of `insertTextAtCursor` |
| `EditorDocument` | editor_document.dfy | the document state `(content, currentFilePath, isModified)` and its handlers: typing, New, Open, Save, Save As, insertion at the caret |
| `EditorKeys` | editor_keys.dfy | `handleKeyDown`: Tab, the Ctrl/Cmd switch, the Ctrl/Cmd+Shift switch, and what the requested insertions do to the captured state |
| `EditorStats` | editor_stats.dfy | the character, word and line counts above the text area, with reference definitions |
| `Debounce` | debounce.dfy | `debounce(func, wait)` as a timer state machine, run over call traces and compared with a reference definition |
| `Scan` | scan.dfy | prefix, suffix and first-character scanners that read generated markup back |
| `Render` | render.dfy | `parseMarkdown`, the preview update, and the custom `link` and `code` renderers, each with a parser that reads its output back |
| `Theme` | theme.dfy | the theme context: stored mode, resolved theme, toggle, persistence, `useTheme` |
| `ThemeToggle` | theme_toggle.dfy | the theme button's label, icon, highlighted option and clicks |
| `Toolbar` | toolbar.dfy | the toolbar's snippet table, its buttons and its agreement with the key handler |
| `Panes` | panes.dfy | the resizable split view: drag flag and the clamped split percentage |

The host environment is an input everywhere:
- the answer of the confirmation dialog;
- the result of the host's save call;
- the text area's selection;
- the system colour-scheme preference;
- the local-storage contents;
- the container's bounding box;
- the results of `marked` and highlight.js.

The preview has no staleness guard: when renders overlap, the one that completes last is
shown. Overlapping renders are not modelled, and no "newest wins" property is stated.

## Model

| member | source | states |
|---|---|---|
| `JsText.Substring` | markdown-previewer-web/src/components/MarkdownEditor.tsx:133 | `substring` clamps both indices into `[0, length]` and swaps them when reversed: in range it is the slice, an index below 0 acts as 0, one past the end acts as the length, and two indices on the same side outside the string give `''` |
| `JsText.SubstringFrom` | markdown-previewer-web/src/components/MarkdownEditor.tsx:133 | `substring(a)` is the suffix from `a`, and empty past the end |
| `JsText.Utf16Length` | markdown-previewer-web/src/components/MarkdownEditor.tsx:214 | `length` counts UTF-16 units: between one and two per character, and one per character exactly when no character lies beyond the Basic Multilingual Plane |
| `JsText.Utf16LengthConcat` | markdown-previewer-web/src/components/MarkdownEditor.tsx:214 | the unit count of a concatenation is the sum of the parts' counts |
| `JsText.Trim` | markdown-previewer-web/src/components/MarkdownEditor.tsx:215 | the trimmed text is a contiguous part of the text with only white space cut from either side; it starts and ends with non-white-space, and it is empty exactly when the whole text is white space |
| `JsText.SplitWhiteSpace` | markdown-previewer-web/src/components/MarkdownEditor.tsx:215 | `split(/\s+/)` yields at least one piece and no piece contains white space; the first piece is empty exactly when the text is empty or starts with white space, and only the first and last pieces can be empty |
| `JsText.SplitWhiteSpaceLastPiece` | markdown-previewer-web/src/components/MarkdownEditor.tsx:215 | the last piece of `split(/\s+/)` is empty exactly when the text is empty or ends with white space |
| `JsText.SplitWhiteSpaceKeepsText` | markdown-previewer-web/src/components/MarkdownEditor.tsx:215 | the pieces put back together, in order, are the text with its white space removed |
| `JsText.SplitChar` | markdown-previewer-web/src/components/MarkdownEditor.tsx:216 | `split('\n')` yields at least one piece and no piece contains the separator |
| `JsText.Lower` | markdown-previewer-web/src/components/MarkdownEditor.tsx:157 | `Lower` keeps the length and, like `toLowerCase`, maps capitals to small letters; only a letter or KELVIN SIGN lower-cases to a small ASCII letter |
| `EditorText.Splice` | markdown-previewer-web/src/components/MarkdownEditor.tsx:131-133 | for a valid selection the result is `content[..start] + text + content[end..]`: prefix and suffix are unchanged, the text sits at `start`, and the length is `|content| - (end - start) + |text|` |
| `EditorText.CaretAfter` | markdown-previewer-web/src/components/MarkdownEditor.tsx:140-142 | an offset between `-|text|` and 0 puts the caret inside the inserted text |
| `EditorText.SpliceUndo` | markdown-previewer-web/src/components/MarkdownEditor.tsx:131-133 | splicing the replaced text back over the inserted text restores the content |
| `EditorDocument.Initial` | markdown-previewer-web/src/components/MarkdownEditor.tsx:14-21 | on mount the content is `initialContent`, there is no file and nothing is modified |
| `EditorDocument.ContentChange` | markdown-previewer-web/src/components/MarkdownEditor.tsx:62-67 | typing sets the content, always sets the modified flag and keeps the path |
| `EditorDocument.NewFile` | markdown-previewer-web/src/components/MarkdownEditor.tsx:70-78 | a modified document whose discard is declined is unchanged; otherwise the result is empty, pathless and unmodified |
| `EditorDocument.OpenFile` | markdown-previewer-web/src/components/MarkdownEditor.tsx:116-124 | a modified document whose discard is declined is unchanged; otherwise it holds the file's content and path, unmodified |
| `EditorDocument.CompleteSave` | markdown-previewer-web/src/components/MarkdownEditor.tsx:80-106 | the content never changes. Only `success && !canceled` clears the flag. The path moves only to a truthy reported path. A thrown error changes nothing |
| `EditorDocument.SaveFile` | markdown-previewer-web/src/components/MarkdownEditor.tsx:80-92 | Save hands the host the current path and text. The content never changes. A throw, a failure or a cancellation leaves the document as it was. Success clears the flag and moves the path to a truthy reported path, and a falsy path keeps the old one |
| `EditorDocument.SaveAsFile` | markdown-previewer-web/src/components/MarkdownEditor.tsx:94-106 | Save As hands the host a null path and the text, with the same outcome table as Save: unchanged unless the save succeeded and was not cancelled, then clean, at the truthy reported path or else the old one |
| `EditorDocument.InsertTextAtCursor` | markdown-previewer-web/src/components/MarkdownEditor.tsx:127-145 | with no text area nothing changes and no caret is set. Otherwise the selection is spliced out, the caret goes to `start + |text| + offset`, and the path and modified flag are untouched |
| `EditorDocument.TypingMarksModifiedInsertionDoesNot` | markdown-previewer-web/src/components/MarkdownEditor.tsx:127-137 | from a clean document, typing the same text leaves it modified; inserting it leaves it clean |
| `EditorDocument.NewAfterInsertionSkipsConfirmation` | markdown-previewer-web/src/components/MarkdownEditor.tsx:70-78 | after an insertion into a clean document, New clears it whatever the dialog answer |
| `EditorDocument.SaveClearsModifiedOnlyOnSuccess` | markdown-previewer-web/src/components/MarkdownEditor.tsx:83-88 | on a modified document the flag is cleared if and only if the save succeeded and was not cancelled; the path changes only to a truthy reported path |
| `EditorDocument.SaveAsIgnoresCurrentPath` | markdown-previewer-web/src/components/MarkdownEditor.tsx:94-106 | Save As behaves the same whatever the current path, apart from the fallback path kept on a falsy result |
| `EditorDocument.EditDuringSaveIsMarkedClean` | markdown-previewer-web/src/components/MarkdownEditor.tsx:61-92 | text typed while the save is awaited is marked clean by the save's completion although the host received the older text, and New then discards it without asking |
| `EditorDocument.SaveWithoutPathIsSaveAs` | markdown-previewer-web/src/components/MarkdownEditor.tsx:80-106 | on a document without a file, Save and Save As coincide |
| `EditorKeys.HandleKeyDown` | markdown-previewer-web/src/components/MarkdownEditor.tsx:148-210 | Tab asks for exactly two spaces. The default is prevented exactly when an insertion is asked for. Any other key asks for something exactly when Ctrl or Cmd is held and the lower-cased key is one of `b i k h q u o t r`, or Shift is held and it is `i` or `c`. At most two insertions are asked, and two only with Shift |
| `EditorKeys.PressKey` | markdown-previewer-web/src/components/MarkdownEditor.tsx:148-210 | a key press that asks for nothing leaves the editor as it was and sets no caret; otherwise the editor ends as the last requested insertion alone makes it |
| `EditorKeys.LastRequestWins` | markdown-previewer-web/src/components/MarkdownEditor.tsx:127-145 | insertions requested from one captured state overwrite each other: the last one is the result |
| `EditorKeys.NoRequestNoChange` | markdown-previewer-web/src/components/MarkdownEditor.tsx:155-209 | a key that asks for nothing leaves the editor unchanged |
| `EditorKeys.MetaActsAsCtrl` | markdown-previewer-web/src/components/MarkdownEditor.tsx:156-198 | Cmd gives the same result as Ctrl for every key |
| `EditorKeys.CtrlShiftIAsksTwice` | markdown-previewer-web/src/components/MarkdownEditor.tsx:162-203 | Ctrl+Shift+I asks for italic and then for the image, and the document gets the image |
| `EditorKeys.CtrlShiftCAsksOnce` | markdown-previewer-web/src/components/MarkdownEditor.tsx:198-208 | Ctrl+Shift+C asks only for the code block |
| `EditorKeys.SnippetOffsetsInside` | markdown-previewer-web/src/components/MarkdownEditor.tsx:156-208 | every keyboard snippet's offset keeps the caret inside that snippet |
| `EditorStats.StatsOf` | markdown-previewer-web/src/components/MarkdownEditor.tsx:213-217 | characters is the UTF-16 length, so an astral character counts twice. Lines is the number of newlines plus one. Words is the number of maximal non-white-space runs, at most the length, and zero exactly for white-space-only text |
| `EditorStats.SplitCountsSeparators` | markdown-previewer-web/src/components/MarkdownEditor.tsx:216 | splitting on a character yields one more piece than there are occurrences |
| `EditorStats.SplitJoinRoundTrip` | markdown-previewer-web/src/components/MarkdownEditor.tsx:216 | joining the pieces of a split with the separator gives the text back |
| `EditorStats.LinesCountNewlines` | markdown-previewer-web/src/components/MarkdownEditor.tsx:216 | the line figure is the newline count plus one |
| `EditorStats.SplitCountsWords` | markdown-previewer-web/src/components/MarkdownEditor.tsx:215 | on a text with no white space at either end, `split(/\s+/)` has one piece per word |
| `EditorStats.WordsCountsRuns` | markdown-previewer-web/src/components/MarkdownEditor.tsx:215 | the word figure equals the reference count of maximal non-white-space runs |
| `EditorStats.WordCountBounds` | markdown-previewer-web/src/components/MarkdownEditor.tsx:215 | there are no more words than characters, and zero words exactly when all is white space |
| `Debounce.Create` | markdown-previewer-web/src/utils/markdown.ts:60 | a fresh debouncer has no timer and satisfies the invariant |
| `Debounce.Call` | markdown-previewer-web/src/utils/markdown.ts:61-64 | a call clears the previous timer and leaves exactly one timer, under a new handle, due `wait` later with this call's arguments; it runs nothing |
| `Debounce.Elapse` | markdown-previewer-web/src/utils/markdown.ts:63 | when time passes, `func` runs at most once, exactly when a timer is due, with that timer's arguments, and no due timer stays |
| `Debounce.Settle` | markdown-previewer-web/src/utils/markdown.ts:63 | with no further call, `func` runs once if a timer is pending and not at all otherwise |
| `Debounce.AtMostOnePending` | markdown-previewer-web/src/utils/markdown.ts:60-64 | the closure's invariant allows at most one live timer |
| `Debounce.Run` | markdown-previewer-web/src/utils/markdown.ts:56-65 | running any call trace keeps the invariant and the wait |
| `Debounce.InvocationsMatchReference` | markdown-previewer-web/src/utils/markdown.ts:56-65 | the invocations of `func` are those of the reference definition: a call's arguments are used exactly when the next call comes `wait` or more later, or never comes |
| `Debounce.BurstInvokesOnce` | markdown-previewer-web/src/utils/markdown.ts:61-64 | calls less than `wait` apart run `func` once, with the last call's arguments |
| `Debounce.QuietGapSeparates` | markdown-previewer-web/src/utils/markdown.ts:61-64 | after a quiet gap of `wait` the next batch is debounced on its own: no leading edge and no suppression |
| `Render.ParseMarkdown` | markdown-previewer-web/src/utils/markdown.ts:40-48 | `parseMarkdown` always fulfils. A string passes through, any other value becomes `''`, and a thrown error becomes the parse-error paragraph |
| `Render.UpdatePreview` | markdown-previewer-web/src/components/MarkdownEditor.tsx:27-38 | a fulfilled parse becomes the preview as it is; a rejected one shows the preview's failure paragraph |
| `Render.PreviewNeverTakesFailureBranch` | markdown-previewer-web/src/components/MarkdownEditor.tsx:26-40 | the preview is always what `parseMarkdown` produced, so its own failure paragraph is never shown |
| `Render.Previews` | markdown-previewer-web/src/components/MarkdownEditor.tsx:26-40 | each render writes the parsed HTML of its text into the preview |
| `Render.EditBurstRendersOnce` | markdown-previewer-web/src/components/MarkdownEditor.tsx:26-45 | edits less than 300 ms apart render once, on the last text |
| `Render.LinkText` | markdown-previewer-web/src/utils/markdown.ts:28 | the anchor text is empty for no tokens, and a single token's raw text (or `''`) |
| `Render.LinkTextAppend` | markdown-previewer-web/src/utils/markdown.ts:28 | the text of a token list is the texts of its parts, in order: each token contributes its raw text |
| `Render.RenderLink` | markdown-previewer-web/src/utils/markdown.ts:27-31 | the anchor starts with `<a href="` and the href and ends with ` target="_blank" rel="noopener noreferrer">`, the tokens' text and `</a>`, whatever the inputs |
| `Render.LinkRoundTrip` | markdown-previewer-web/src/utils/markdown.ts:27-31 | for quote-free values the anchor reads back as the href, the title exactly when it is truthy, and the tokens' raw texts joined, behind the fixed `target="_blank" rel="noopener noreferrer"` |
| `Render.QuotedTitleNotReadBack` | markdown-previewer-web/src/utils/markdown.ts:29-30 | nothing is escaped: for every title containing a quote, the anchor either no longer parses or reads back a different title |
| `Render.QuoteInTitleEscapesAttribute` | markdown-previewer-web/src/utils/markdown.ts:29-30 | nothing is escaped: a quote in a title ends the attribute, and the rest of the title is read as markup |
| `Render.RenderCode` | markdown-previewer-web/src/utils/markdown.ts:14-24 | every code block starts with `<pre><code class="hljs` |
| `Render.CodeRoundTrip` | markdown-previewer-web/src/utils/markdown.ts:14-24 | a block gets `language-<lang>` and the highlighted HTML exactly when the language is truthy, known and highlighting succeeds; otherwise it holds the raw text, whatever the language is. A language that reaches the class attribute must be free of quotes to read back |
| `Theme.InitialTheme` | markdown-previewer-web/src/contexts/ThemeContext.tsx:22-26 | a missing or empty stored value gives auto; any other stored string is taken as it is, unvalidated |
| `Theme.EncodeDecode` | markdown-previewer-web/src/contexts/ThemeContext.tsx:24 | every theme a stored string can stand for decodes back from its stored form |
| `Theme.DecodeEncode` | markdown-previewer-web/src/contexts/ThemeContext.tsx:24 | the cast keeps every stored string: encoding the decoded value gives it back |
| `Theme.SystemTheme` | markdown-previewer-web/src/contexts/ThemeContext.tsx:31-33 | the system theme is light or dark, and dark exactly when the system prefers dark |
| `Theme.ActualTheme` | markdown-previewer-web/src/contexts/ThemeContext.tsx:36 | auto resolves to the system theme and every other mode to itself, so the resolved theme is never auto |
| `Theme.ToggleTheme` | markdown-previewer-web/src/contexts/ThemeContext.tsx:68-78 | light goes to dark and dark to light; anything else goes to the opposite of the system theme |
| `Theme.Persist` | markdown-previewer-web/src/contexts/ThemeContext.tsx:63-65 | the mode is stored under `markdown-previewer-theme` and every other key is unchanged |
| `Theme.Mount` | markdown-previewer-web/src/contexts/ThemeContext.tsx:22-26 | mounting takes the initial theme from storage and leaves storage consistent with it |
| `Theme.SetTheme` | markdown-previewer-web/src/contexts/ThemeContext.tsx:63-65 | setting a mode makes it the mode and stores it |
| `Theme.Toggle` | markdown-previewer-web/src/contexts/ThemeContext.tsx:68-78 | the theme button flips the resolved theme and keeps storage consistent |
| `Theme.OnSystemChange` | markdown-previewer-web/src/contexts/ThemeContext.tsx:39-51 | a system change never changes the mode |
| `Theme.PersistRoundTrip` | markdown-previewer-web/src/contexts/ThemeContext.tsx:63-65 | reading the stored mode back yields the mode that was written |
| `Theme.ToggleFlipsActual` | markdown-previewer-web/src/contexts/ThemeContext.tsx:68-78 | with a fixed system preference a toggle flips the resolved theme and never lands on auto |
| `Theme.ToggleTwice` | markdown-previewer-web/src/contexts/ThemeContext.tsx:68-78 | two toggles are the identity on light and dark, and take auto to the system theme |
| `Theme.ChangesKeepStorageInStep` | markdown-previewer-web/src/contexts/ThemeContext.tsx:63-65 | setting, toggling and system changes keep the stored mode equal to the current mode |
| `Theme.StatusBarDark` | markdown-previewer-web/src/contexts/ThemeContext.tsx:59 | the status bar is dark exactly in dark mode, or in auto mode when the system prefers dark |
| `Theme.StatusBarFollowsActual` | markdown-previewer-web/src/contexts/ThemeContext.tsx:59 | the status bar is dark exactly when the resolved theme is dark |
| `Theme.UseTheme` | markdown-previewer-web/src/contexts/ThemeContext.tsx:95-101 | `useTheme` fails, with its message, exactly when there is no provider, and otherwise gives the context |
| `ThemeToggle.Label` | markdown-previewer-web/src/components/ThemeToggle.tsx:32-43 | every valid mode gets a label that reads back; a label that reads back names the mode it was made for; the auto label names the resolved theme |
| `ThemeToggle.Active` | markdown-previewer-web/src/components/ThemeToggle.tsx:61-97 | the first option is highlighted exactly in light mode, the second exactly in dark mode and the third exactly in auto mode |
| `ThemeToggle.IconFor` | markdown-previewer-web/src/components/ThemeToggle.tsx:12-30 | the sun is shown exactly for light and the moon exactly for dark |
| `ThemeToggle.IconFollowsActualTheme` | markdown-previewer-web/src/components/ThemeToggle.tsx:12-30 | in auto the icon follows the system, the moon shows exactly when the status bar is dark, and every valid mode shows an icon |
| `ThemeToggle.OnClick` | markdown-previewer-web/src/components/ThemeToggle.tsx:47-97 | an option sets its own mode and becomes the active one; the main button toggles; storage stays consistent |
| `ThemeToggle.ExactlyOneActive` | markdown-previewer-web/src/components/ThemeToggle.tsx:61-97 | for a valid mode exactly one option is highlighted, the one equal to it; for a foreign stored value none is |
| `ThemeToggle.LabelRoundTrip` | markdown-previewer-web/src/components/ThemeToggle.tsx:32-43 | every valid mode's label reads back as that mode and its resolved theme |
| `ThemeToggle.LabelIdentifiesState` | markdown-previewer-web/src/components/ThemeToggle.tsx:32-43 | two valid states with the same label have the same mode and the same resolved theme |
| `ThemeToggle.AutoLabelShowsSystem` | markdown-previewer-web/src/components/ThemeToggle.tsx:38-39 | in auto the label names the resolved theme |
| `Toolbar.Click` | markdown-previewer-web/src/components/Toolbar.tsx:16-93 | a button splices its snippet over the selection, puts the caret inside the snippet, and keeps the path and modified flag |
| `Toolbar.Buttons` | markdown-previewer-web/src/components/Toolbar.tsx:89-111 | the eleven items come first in order, and the preview toggle exists exactly when a callback is supplied |
| `Toolbar.ItemOrder` | markdown-previewer-web/src/components/Toolbar.tsx:16-83 | there are eleven items: bold, italic, heading, link, image, code block, quote, unordered list, ordered list, table, rule |
| `Toolbar.OffsetsInsideSnippets` | markdown-previewer-web/src/components/Toolbar.tsx:16-83 | every offset lies between minus the snippet's length and 0 |
| `Toolbar.ShortcutsAgreeWithKeyHandler` | markdown-previewer-web/src/components/Toolbar.tsx:16-83 | every advertised shortcut, with Ctrl or Cmd and the letter in lower or upper case, asks the key handler for the button's snippet and offset last, and leaves the document as the click does |
| `Toolbar.ShortcutTable` | markdown-previewer-web/src/components/Toolbar.tsx:16-83 | item by item, the key handler's last request for the label's key event, in either letter case, is the item's action |
| `Panes.Create` | markdown-previewer-web/src/components/ResizablePanes.tsx:11-18 | the split starts at the initial percentage, not dragging, with the given minimum pane size; the two props default to 50 and 200 |
| `Panes.DefaultsSplitEvenly` | markdown-previewer-web/src/components/ResizablePanes.tsx:14-15 | with the default props the panes start at 50% each with a 200-pixel minimum |
| `Panes.MouseDown` | markdown-previewer-web/src/components/ResizablePanes.tsx:22-25 | a press on the divider starts a drag and keeps the split |
| `Panes.MouseUp` | markdown-previewer-web/src/components/ResizablePanes.tsx:46-48 | a release ends the drag and keeps the split |
| `Panes.SplitFor` | markdown-previewer-web/src/components/ResizablePanes.tsx:35-41 | when `min% <= 50` the split stays in `[min%, 100 - min%]` and an in-range position is taken exactly; when `min% > 50` the split is `min%` |
| `Panes.MouseMove` | markdown-previewer-web/src/components/ResizablePanes.tsx:27-44 | moves are ignored unless dragging and mounted, and never change the drag flag |
| `Panes.Widths` | markdown-previewer-web/src/components/ResizablePanes.tsx:78-93 | the two panes' widths add up to 100% |
| `Panes.DragKeepsMinimumWidths` | markdown-previewer-web/src/components/ResizablePanes.tsx:35-41 | when both panes can have `minPaneSize` pixels, every drag step leaves each pane at least that wide |
| `Panes.SplitMonotone` | markdown-previewer-web/src/components/ResizablePanes.tsx:35-41 | moving the mouse right never moves the divider left |
| `Panes.SplitIdempotent` | markdown-previewer-web/src/components/ResizablePanes.tsx:35-41 | a second drag step at the divider's current pixel position changes nothing |
| `Panes.DragLifecycle` | markdown-previewer-web/src/components/ResizablePanes.tsx:22-48 | without a press moves do nothing; after a press they set the clamped split; after the release they do nothing again |

## Left out

- File I/O, the Electron and Capacitor bridges, the menu listeners and the HTML export are host calls. The save result is an input record. The export handler only forwards the preview and swallows errors, so it changes no state and is not modelled.
- `marked` and highlight.js are parameters: the Markdown conversion is a function that may return a string, another value or throw; `getLanguage` is a set and `highlight` a partial function.
- Overlapping asynchronous renders, React's batching of state updates, the `isLoading` flag and the `setTimeout` that moves the caret and focuses the text area are not modelled. The caret position is computed, but the browser clamps it to the text and that clamping is not modelled.
- `insertTextAtCursor` also calls the debounced preview directly, so one key press makes one or two such calls (two for Ctrl+Shift+I, first with the italic splice and then with the image splice), followed by the content effect's call with the final text. All of them fall within one 300 ms window, and the last carries the final content, so the debounced preview renders once on that text. The extra calls are not modelled.
- `onChange` callbacks are notifications to the parent and are left out.
- `EditorDocument.SaveFile` and `EditorDocument.SaveAsFile` are single steps, although the source awaits the host. The model splits the step into the call with the current text (`SaveCall`) and `EditorDocument.CompleteSave`. Edits made during the await are covered only by `EditorDocument.EditDuringSaveIsMarkedClean`, which shows the completion marking unsaved text clean.
- The DOM theme attributes, the `matchMedia` listener registration and `localStorage` itself are outside the model. The system preference is a boolean and storage is a map.
- `Panes.SplitFor` and the pane lemmas use `real` with `width > 0`: the IEEE behaviour (Infinity, NaN) for a zero-width container is not modelled. The editor's own `initialSplitPercentage` 50 and `minPaneSize` 300 are just arguments of `Panes.Create`.
- `Debounce.Elapse`: timers are taken to fire exactly when due, and a timer due at exactly the time of the next call fires before that call. Browsers only promise that a timer fires at least `wait` later. A late timer is cancelled by a call that comes before it runs. For example, with `wait` 300, calls at 0 and 301 and the first timer running at 302, only the second call's arguments are used. `Debounce.InvocationsMatchReference` and `Debounce.QuietGapSeparates` hold for on-time timers only.
- `JsText.Lower` models `toLowerCase` only for ASCII capitals and KELVIN SIGN, the only code units that lower-case to an ASCII letter. Other units are kept, which does not change the key handler's comparisons.
- Lone surrogate code units cannot be Dafny `char` values, so text holding one is not modelled.
- `EditorText.Splice` and `EditorDocument.InsertTextAtCursor` index the content by character, while `selectionStart` and `selectionEnd` count UTF-16 units. The two agree on Basic Multilingual Plane text. After an astral character they differ, and a selection falling inside a surrogate pair is not modelled.
- `Theme.ActualTheme` takes the system preference as an input, and the model treats that input as current. In the source, the value is the one read at the provider's most recent render. The media listener's `setTheme('auto')` is an update to the value already held, which React skips. So after a system change, the resolved theme, label, icon and status bar keep the old preference until something else re-renders the provider.
- The toolbar buttons' tooltips (`title` = label plus shortcut) are presentation only.
- Toolbar icons, SVGs, class names, CSS and other JSX markup are presentation only.

=== FILE: debounce.dfy ===
/** `debounce(func, wait)` from utils/markdown.ts as a state machine. The
    closure holds one variable, `timeout`; each call clears the timer it names
    and starts a new one, so `func` runs only after `wait` milliseconds with no
    further call, with the arguments of the last call. Time is an integer
    number of milliseconds; the browser's timer table is part of the state so
    that "at most one timer" is a property and not a type. */
module Debounce {
  import opened Wrappers

  /** A scheduled `() => func(...args)`. */
  datatype Timer<A> = Timer(due: int, args: A)

  /** The live timers this debouncer created (by handle), the closure's
      `timeout` variable, and the handle the browser hands out next. */
  datatype Debouncer<A> = Debouncer(wait: nat, timers: map<nat, Timer<A>>, timeout: Option<nat>, nextHandle: nat)

  /** The closure's invariant: only the timer `timeout` names can be live,
      and every handle was issued before. */
  predicate Valid<A>(d: Debouncer<A>) {
    && (forall h :: h in d.timers ==> d.timeout == Some(h))
    && (d.timeout.Some? ==> d.timeout.value < d.nextHandle)
  }

  /** A fresh debouncer: no timer, `timeout` still undefined. */
  function Create<A>(wait: nat): (r: Debouncer<A>)
    ensures Valid(r) && r.timers == map[]
  {
    Debouncer(wait, map[], None, 1)
  }

  /** One call of the debounced function at time `now`: `clearTimeout(timeout)`
      (a no-op for an undefined or already fired handle), then a new timer due
      `wait` later whose handle is stored in `timeout`. `func` is not run. */
  function Call<A>(d: Debouncer<A>, now: int, args: A): (r: Debouncer<A>)
    requires Valid(d)
    ensures Valid(r)
    ensures r.timeout.Some? && r.timers == map[r.timeout.value := Timer(now + d.wait, args)]
    ensures d.timeout.Some? ==> r.timeout.value != d.timeout.value
    ensures r.wait == d.wait
  {
    var cleared := if d.timeout.Some? then d.timers - {d.timeout.value} else d.timers;
    Debouncer(d.wait, cleared[d.nextHandle := Timer(now + d.wait, args)], Some(d.nextHandle), d.nextHandle + 1)
  }

  /** The clock reaches `now`: a timer due by then fires, leaves the table and
      runs `func` with its arguments. `timeout` keeps the spent handle. */
  function Elapse<A>(d: Debouncer<A>, now: int): (r: (Debouncer<A>, seq<A>))
    requires Valid(d)
    ensures Valid(r.0) && r.0.wait == d.wait && r.0.timeout == d.timeout
    ensures forall h :: h in r.0.timers ==> r.0.timers[h].due > now
    ensures |r.1| <= 1
    ensures r.1 != [] <==> exists h :: h in d.timers && d.timers[h].due <= now
    ensures r.1 != [] ==> d.timeout.value in d.timers && r.1 == [d.timers[d.timeout.value].args]
  {
    if d.timeout.Some? && d.timeout.value in d.timers && d.timers[d.timeout.value].due <= now then
      (d.(timers := d.timers - {d.timeout.value}), [d.timers[d.timeout.value].args])
    else (d, [])
  }

  /** The clock runs on with no further call: the pending timer, if any, fires. */
  function Settle<A>(d: Debouncer<A>): (r: seq<A>)
    requires Valid(d)
    ensures |r| <= 1
    ensures r != [] <==> d.timers != map[]
  {
    if d.timeout.Some? && d.timeout.value in d.timers then [d.timers[d.timeout.value].args] else []
  }

  /** At most one timer is pending at any time. */
  lemma AtMostOnePending<A>(d: Debouncer<A>)
    requires Valid(d)
    ensures |d.timers| <= 1
  {
    if d.timeout.Some? {
      assert d.timers.Keys <= {d.timeout.value};
      SubsetOfSingleton(d.timers.Keys, d.timeout.value);
    } else {
      assert d.timers.Keys == {};
    }
  }

  lemma SubsetOfSingleton(s: set<nat>, x: nat)
    requires s <= {x}
    ensures |s| <= 1
  {
    if x in s { assert s == {x}; } else { assert s == {}; }
  }

  // ---------------------------------------------------------------------------
  // traces of calls
  // ---------------------------------------------------------------------------

  /** A call of the debounced function at a time, with its arguments. */
  datatype CallAt<A> = CallAt(at: int, args: A)

  /** The calls in order: before each one the clock reaches its time. The
      result is the state after the last call and the invocations of `func`
      made meanwhile, in order. */
  function Run<A>(d: Debouncer<A>, calls: seq<CallAt<A>>): (r: (Debouncer<A>, seq<A>))
    requires Valid(d)
    ensures Valid(r.0) && r.0.wait == d.wait
    decreases |calls|
  {
    if calls == [] then (d, [])
    else
      var (d1, fired) := Elapse(d, calls[0].at);
      var d2 := Call(d1, calls[0].at, calls[0].args);
      var (d3, later) := Run(d2, calls[1..]);
      (d3, fired + later)
  }

  /** All invocations of `func` caused by the calls, once the clock has run
      past the last timer. */
  function Invocations<A>(wait: nat, calls: seq<CallAt<A>>): seq<A> {
    var (d, fired) := Run(Create(wait), calls);
    fired + Settle(d)
  }

  /** Reference definition of trailing-edge debouncing: a call's arguments
      reach `func` exactly when the next call comes `wait` or more later, or
      there is no next call. */
  function Expected<A>(wait: nat, calls: seq<CallAt<A>>): seq<A>
    decreases |calls|
  {
    if calls == [] then []
    else if |calls| == 1 then [calls[0].args]
    else (if calls[1].at - calls[0].at >= wait then [calls[0].args] else []) + Expected(wait, calls[1..])
  }

  /** A state whose one pending timer is the one call `c` scheduled. */
  ghost predicate PendingFor<A>(d: Debouncer<A>, c: CallAt<A>) {
    && Valid(d)
    && d.timeout.Some?
    && d.timers == map[d.timeout.value := Timer(c.at + d.wait, c.args)]
  }

  lemma {:induction false} RunFromPending<A>(d: Debouncer<A>, c: CallAt<A>, calls: seq<CallAt<A>>)
    requires PendingFor(d, c)
    ensures Run(d, calls).1 + Settle(Run(d, calls).0) == Expected(d.wait, [c] + calls)
    decreases |calls|
  {
    var cs := [c] + calls;
    if calls == [] {
      assert cs == [c];
    } else {
      var (d1, fired) := Elapse(d, calls[0].at);
      var d2 := Call(d1, calls[0].at, calls[0].args);
      assert PendingFor(d2, calls[0]);
      RunFromPending(d2, calls[0], calls[1..]);
      assert cs[1..] == [calls[0]] + calls[1..];
      assert fired == (if calls[0].at - c.at >= d.wait then [c.args] else []) by {
        assert d.timeout.value in d.timers;
      }
    }
  }

  /** The debouncer invokes `func` exactly as the reference definition says. */
  lemma InvocationsMatchReference<A>(wait: nat, calls: seq<CallAt<A>>)
    ensures Invocations(wait, calls) == Expected(wait, calls)
  {
    if calls != [] {
      var d0: Debouncer<A> := Create(wait);
      var d2 := Call(Elapse(d0, calls[0].at).0, calls[0].at, calls[0].args);
      assert PendingFor(d2, calls[0]);
      RunFromPending(d2, calls[0], calls[1..]);
      assert [calls[0]] + calls[1..] == calls;
    }
  }

  /** Consecutive calls closer together than `wait`. */
  predicate Burst<A>(wait: nat, calls: seq<CallAt<A>>) {
    forall i :: 0 <= i < |calls| - 1 ==> calls[i + 1].at - calls[i].at < wait
  }

  /** A burst, however long, runs `func` once, with the last call's arguments. */
  lemma {:induction false} BurstInvokesOnce<A>(wait: nat, calls: seq<CallAt<A>>)
    requires calls != [] && Burst(wait, calls)
    ensures Invocations(wait, calls) == [calls[|calls| - 1].args]
  {
    InvocationsMatchReference(wait, calls);
    BurstExpected(wait, calls);
  }

  lemma {:induction false} BurstExpected<A>(wait: nat, calls: seq<CallAt<A>>)
    requires calls != [] && Burst(wait, calls)
    ensures Expected(wait, calls) == [calls[|calls| - 1].args]
    decreases |calls|
  {
    if |calls| > 1 {
      assert calls[1].at - calls[0].at < wait;
      BurstExpected(wait, calls[1..]);
    }
  }

  /** No suppression after a firing: once `wait` has passed since the last
      call of one batch, the next batch is debounced on its own. */
  lemma {:induction false} QuietGapSeparates<A>(wait: nat, first: seq<CallAt<A>>, second: seq<CallAt<A>>)
    requires first != [] && second != []
    requires second[0].at - first[|first| - 1].at >= wait
    ensures Invocations(wait, first + second) == Invocations(wait, first) + Invocations(wait, second)
  {
    InvocationsMatchReference(wait, first + second);
    InvocationsMatchReference(wait, first);
    InvocationsMatchReference(wait, second);
    ExpectedSplits(wait, first, second);
  }

  lemma {:induction false} ExpectedSplits<A>(wait: nat, first: seq<CallAt<A>>, second: seq<CallAt<A>>)
    requires first != [] && second != []
    requires second[0].at - first[|first| - 1].at >= wait
    ensures Expected(wait, first + second) == Expected(wait, first) + Expected(wait, second)
    decreases |first|
  {
    var c := first[0];
    var rest := first[1..];
    assert first == [c] + rest;
    assert first + second == [c] + (rest + second);
    if rest == [] {
      ExpectedCons(wait, c, second);
    } else {
      ExpectedSplits(wait, rest, second);
      ExpectedCons(wait, c, rest + second);
      ExpectedCons(wait, c, rest);
      assert (rest + second)[0] == rest[0];
    }
  }

  /** One unfolding of `Expected` in front of a non-empty trace. */
  lemma ExpectedCons<A>(wait: nat, c: CallAt<A>, calls: seq<CallAt<A>>)
    requires calls != []
    ensures Expected(wait, [c] + calls)
      == (if calls[0].at - c.at >= wait then [c.args] else []) + Expected(wait, calls)
  {
    var all := [c] + calls;
    assert all[0] == c && all[1] == calls[0] && all[1..] == calls;
  }
}

=== FILE: editor_document.dfy ===
/** The document state of MarkdownEditor.tsx — the text, the file it was
    loaded from or saved to, and the unsaved-changes flag — and the handlers
    that move it: typing, toolbar/shortcut insertion, New, Open, Save and
    Save As. The host's confirmation dialog and save dialog are inputs. */
module EditorDocument {
  import opened Wrappers
  import opened EditorText

  /** `content`, `currentFilePath` (null as `None`) and `isModified`. */
  datatype Doc = Doc(content: string, path: Option<string>, modified: bool)

  /** The state on mount: the given initial content, no file, unmodified. */
  function Initial(initialContent: string): (r: Doc)
    ensures r.content == initialContent && r.path.None? && !r.modified
  {
    Doc(initialContent, None, false)
  }

  /** `handleContentChange`: the text area's new value replaces the content
      and the document is marked modified. */
  function ContentChange(d: Doc, newContent: string): (r: Doc)
    ensures r.content == newContent
    ensures r.modified
    ensures r.path == d.path
  {
    d.(content := newContent, modified := true)
  }

  // ---------------------------------------------------------------------------
  // New / Open
  // ---------------------------------------------------------------------------

  /** The confirmation dialog is shown only for a modified document; the
      handler proceeds unless it was shown and declined. */
  predicate MayDiscard(d: Doc, confirmed: bool) {
    !d.modified || confirmed
  }

  /** `handleNewFile`; `confirmed` is the answer `window.confirm` would give. */
  function NewFile(d: Doc, confirmed: bool): (r: Doc)
    ensures !MayDiscard(d, confirmed) ==> r == d
    ensures MayDiscard(d, confirmed) ==> r == Doc([], None, false)
  {
    if d.modified && !confirmed then d
    else Doc([], None, false)
  }

  /** `handleOpenFile` with the path and text the host delivered. */
  function OpenFile(d: Doc, filePath: string, fileContent: string, confirmed: bool): (r: Doc)
    ensures !MayDiscard(d, confirmed) ==> r == d
    ensures MayDiscard(d, confirmed) ==> r == Doc(fileContent, Some(filePath), false)
  {
    if d.modified && !confirmed then d
    else Doc(fileContent, Some(filePath), false)
  }

  // ---------------------------------------------------------------------------
  // Save / Save As
  // ---------------------------------------------------------------------------

  /** The record the host's `saveFile` resolves with; an absent `canceled`
      reads as false and an absent `filePath` as `None`. */
  datatype SaveResult = SaveResult(success: bool, canceled: bool, filePath: Option<string>)

  /** The awaited call either resolves with a result or throws. */
  datatype SaveOutcome = Resolved(result: SaveResult) | Threw

  /** The arguments handed to the host: a path (null as `None`) and the text. */
  datatype SaveCall = SaveCall(path: Option<string>, content: string)

  /** What both save handlers do once the host has answered. */
  function CompleteSave(d: Doc, outcome: SaveOutcome): (r: Doc)
    ensures r.content == d.content
    ensures r.modified == (d.modified && !(outcome.Resolved? && outcome.result.success && !outcome.result.canceled))
    ensures r.path == (if outcome.Resolved? && outcome.result.success && !outcome.result.canceled
                          && Truthy(outcome.result.filePath)
                       then outcome.result.filePath else d.path)
    ensures outcome.Threw? ==> r == d
  {
    match outcome
    case Threw => d
    case Resolved(res) =>
      if res.success && !res.canceled then
        d.(modified := false, path := if Truthy(res.filePath) then res.filePath else d.path)
      else d
  }

  /** `handleSaveFile`: asks the host to save under the current path. */
  function SaveFile(d: Doc, host: SaveCall -> SaveOutcome): (r: Doc)
    ensures r.content == d.content
    ensures var o := host(SaveCall(d.path, d.content));
      && (o.Threw? ==> r == d)
      && (o.Resolved? && !(o.result.success && !o.result.canceled) ==> r == d)
      && (o.Resolved? && o.result.success && !o.result.canceled ==> !r.modified)
      && (o.Resolved? && o.result.success && !o.result.canceled && Truthy(o.result.filePath) ==> r.path == o.result.filePath)
      && (o.Resolved? && !Truthy(o.result.filePath) ==> r.path == d.path)
  {
    CompleteSave(d, host(SaveCall(d.path, d.content)))
  }

  /** `handleSaveAsFile`: asks the host to save under no path, which makes it
      prompt for one. */
  function SaveAsFile(d: Doc, host: SaveCall -> SaveOutcome): (r: Doc)
    ensures r.content == d.content
    ensures var o := host(SaveCall(None, d.content));
      && (o.Threw? ==> r == d)
      && (o.Resolved? && !(o.result.success && !o.result.canceled) ==> r == d)
      && (o.Resolved? && o.result.success && !o.result.canceled ==> !r.modified)
      && (o.Resolved? && o.result.success && !o.result.canceled && Truthy(o.result.filePath) ==> r.path == o.result.filePath)
      && (o.Resolved? && !Truthy(o.result.filePath) ==> r.path == d.path)
  {
    CompleteSave(d, host(SaveCall(None, d.content)))
  }

  // ---------------------------------------------------------------------------
  // insertion at the caret
  // ---------------------------------------------------------------------------

  /** The document after an insertion, and where the caret is put (`None`
      when no caret is set). */
  datatype Insertion = Insertion(doc: Doc, caret: Option<int>)

  /** `insertTextAtCursor`; `textarea` is the text area's selection, `None`
      before the text area is mounted. */
  function InsertTextAtCursor(d: Doc, textarea: Option<Selection>, text: string, cursorOffset: int): (r: Insertion)
    ensures textarea.None? ==> r == Insertion(d, None)
    ensures r.doc.path == d.path && r.doc.modified == d.modified
    ensures textarea.Some? && ValidSelection(textarea.value, |d.content|) ==>
      var sel := textarea.value;
      && r.doc.content == d.content[..sel.start] + text + d.content[sel.end..]
      && r.caret == Some(sel.start + |text| + cursorOffset)
    ensures textarea.Some? && ValidSelection(textarea.value, |d.content|) && -|text| <= cursorOffset <= 0 ==>
      0 <= textarea.value.start <= r.caret.value <= textarea.value.start + |text| <= |r.doc.content|
  {
    match textarea
    case None => Insertion(d, None)
    case Some(sel) =>
      Insertion(d.(content := Splice(d.content, sel, text)), Some(CaretAfter(sel, text, cursorOffset)))
  }

  // ---------------------------------------------------------------------------
  // properties relating several handlers
  // ---------------------------------------------------------------------------

  /** Typing always marks the document modified; an insertion never changes
      the flag, so inserting into a clean document leaves it clean. */
  lemma TypingMarksModifiedInsertionDoesNot(d: Doc, sel: Selection, text: string, cursorOffset: int)
    requires !d.modified
    requires ValidSelection(sel, |d.content|)
    ensures
      var typed := ContentChange(d, InsertTextAtCursor(d, Some(sel), text, cursorOffset).doc.content);
      typed.modified && typed.content == d.content[..sel.start] + text + d.content[sel.end..]
    ensures !InsertTextAtCursor(d, Some(sel), text, cursorOffset).doc.modified
  {
  }

  /** A consequence of the above: text inserted through the toolbar into a
      clean document is dropped by New without the confirmation dialog. */
  lemma NewAfterInsertionSkipsConfirmation(d: Doc, sel: Selection, text: string, cursorOffset: int)
    requires !d.modified
    requires ValidSelection(sel, |d.content|)
    ensures forall confirmed: bool ::
      NewFile(InsertTextAtCursor(d, Some(sel), text, cursorOffset).doc, confirmed) == Doc([], None, false)
  {
  }

  /** Only a successful, not-cancelled save clears the flag; the path moves
      only to a non-empty reported path. */
  lemma SaveClearsModifiedOnlyOnSuccess(d: Doc, outcome: SaveOutcome)
    requires d.modified
    ensures !CompleteSave(d, outcome).modified <==>
      outcome.Resolved? && outcome.result.success && !outcome.result.canceled
    ensures CompleteSave(d, outcome).path != d.path ==>
      outcome.Resolved? && Truthy(outcome.result.filePath) && outcome.result.filePath != d.path
  {
  }

  /** Save As hands the host no path, so what the host does cannot depend on
      the current path: only the fallback path differs. */
  lemma SaveAsIgnoresCurrentPath(d: Doc, p: Option<string>, host: SaveCall -> SaveOutcome)
    ensures
      var a := SaveAsFile(d, host);
      var b := SaveAsFile(d.(path := p), host);
      && a.modified == b.modified
      && a.content == b.content
      && (a.path == b.path || (a.path == d.path && b.path == p))
  {
  }

  /** The save is awaited, and typing may happen meanwhile. The host was handed
      the content as it was when Save was pressed, yet the completion clears the
      flag of the edited document: the newer text is marked clean without having
      been saved, and New then discards it without asking. */
  lemma EditDuringSaveIsMarkedClean(d: Doc, typed: string, res: SaveResult, confirmed: bool)
    requires typed != d.content
    requires res.success && !res.canceled
    ensures var r := CompleteSave(ContentChange(d, typed), Resolved(res));
      && r.content == typed
      && r.content != d.content
      && !r.modified
      && NewFile(r, confirmed) == Doc([], None, false)
  {
  }

  /** On a document with no file yet, Save and Save As are the same. */
  lemma SaveWithoutPathIsSaveAs(d: Doc, host: SaveCall -> SaveOutcome)
    requires d.path.None?
    ensures SaveFile(d, host) == SaveAsFile(d, host)
  {
  }
}

=== FILE: editor_keys.dfy ===
/** The keyboard shortcuts of the text area (`handleKeyDown` in
    MarkdownEditor.tsx): Tab indents, and Ctrl/Cmd letters ask for Markdown
    snippets through `insertTextAtCursor`. */
module EditorKeys {
  import opened Wrappers
  import opened JsText
  import opened EditorText
  import opened EditorDocument

  /** The fields of a keyboard event the handler reads. */
  datatype KeyEvent = KeyEvent(key: string, ctrlKey: bool, metaKey: bool, shiftKey: bool)

  /** One `insertTextAtCursor(text, cursorOffset)` call. */
  datatype Request = Request(text: string, cursorOffset: int)

  /** Whether `preventDefault` was called, and the insertions asked for, in
      call order. */
  datatype KeyResult = KeyResult(preventDefault: bool, requests: seq<Request>)

  const Indent: Request := Request("  ", 0)

  /** The first `switch`, taken whenever Ctrl or Cmd is held. */
  function CtrlSnippet(key: string): Option<Request> {
    if key == "b" then Some(Request("**粗体文本**", -4))
    else if key == "i" then Some(Request("*斜体文本*", -4))
    else if key == "k" then Some(Request("[链接文本](https://example.com)", -21))
    else if key == "h" then Some(Request("# 标题", 0))
    else if key == "q" then Some(Request("> 引用文本", 0))
    else if key == "u" then Some(Request("- 列表项", 0))
    else if key == "o" then Some(Request("1. 列表项", 0))
    else if key == "t" then Some(Request("| 列1 | 列2 | 列3 |\n|------|------|------|\n| 内容 | 内容 | 内容 |", 0))
    else if key == "r" then Some(Request("\n---\n", 0))
    else None
  }

  /** The second `switch`, taken when Shift is held as well. */
  function CtrlShiftSnippet(key: string): Option<Request> {
    if key == "i" then Some(Request("![图片描述](图片链接)", -6))
    else if key == "c" then Some(Request("```\n代码\n```", -4))
    else None
  }

  function AsSeq(o: Option<Request>): (r: seq<Request>)
    ensures |r| <= 1
  {
    if o.Some? then [o.value] else []
  }

  /** `handleKeyDown`. */
  function HandleKeyDown(e: KeyEvent): (r: KeyResult)
    ensures e.key == "Tab" ==> r == KeyResult(true, [Indent])
    ensures r.preventDefault <==> r.requests != []
    ensures !e.ctrlKey && !e.metaKey && e.key != "Tab" ==> r.requests == []
    ensures |r.requests| <= 2
    ensures |r.requests| == 2 ==> (e.ctrlKey || e.metaKey) && e.shiftKey
    ensures e.key != "Tab" ==>
      (r.requests == [] <==>
        || !(e.ctrlKey || e.metaKey)
        || (&& Lower(e.key) !in {"b", "i", "k", "h", "q", "u", "o", "t", "r"}
            && !(e.shiftKey && Lower(e.key) in {"i", "c"})))
  {
    if e.key == "Tab" then KeyResult(true, [Indent])
    else
      var k := Lower(e.key);
      var modifier := e.ctrlKey || e.metaKey;
      var first := if modifier then CtrlSnippet(k) else None;
      var second := if modifier && e.shiftKey then CtrlShiftSnippet(k) else None;
      KeyResult(first.Some? || second.Some?, AsSeq(first) + AsSeq(second))
  }

  /** The effect of the requests of one key press on the editor. Every call
      splices into the same `content` the handler's closure captured, reading
      the same selection, so each call's result replaces the previous one and
      the last caret placement wins. */
  function ApplyRequests(d: Doc, textarea: Option<Selection>, requests: seq<Request>, acc: Insertion): Insertion
    decreases |requests|
  {
    if requests == [] then acc
    else ApplyRequests(d, textarea, requests[1..], InsertTextAtCursor(d, textarea, requests[0].text, requests[0].cursorOffset))
  }

  /** The editor after a key press. */
  function PressKey(d: Doc, textarea: Option<Selection>, e: KeyEvent): (r: Insertion)
    ensures HandleKeyDown(e).requests == [] ==> r == Insertion(d, None)
    ensures var reqs := HandleKeyDown(e).requests;
      reqs != [] ==> r == InsertTextAtCursor(d, textarea, reqs[|reqs| - 1].text, reqs[|reqs| - 1].cursorOffset)
  {
    var reqs := HandleKeyDown(e).requests;
    assert reqs != [] ==>
      (ApplyRequests(d, textarea, reqs, Insertion(d, None))
        == InsertTextAtCursor(d, textarea, reqs[|reqs| - 1].text, reqs[|reqs| - 1].cursorOffset)) by {
      if reqs != [] { LastRequestWins(d, textarea, reqs, Insertion(d, None)); }
    }
    ApplyRequests(d, textarea, reqs, Insertion(d, None))
  }

  // ---------------------------------------------------------------------------
  // properties
  // ---------------------------------------------------------------------------

  /** Of several insertions into one captured state, only the last shows. */
  lemma {:induction false} LastRequestWins(d: Doc, textarea: Option<Selection>, requests: seq<Request>, acc: Insertion)
    requires requests != []
    ensures
      var last := requests[|requests| - 1];
      ApplyRequests(d, textarea, requests, acc) == InsertTextAtCursor(d, textarea, last.text, last.cursorOffset)
    decreases |requests|
  {
    if |requests| > 1 {
      LastRequestWins(d, textarea, requests[1..], InsertTextAtCursor(d, textarea, requests[0].text, requests[0].cursorOffset));
    }
  }

  /** A key press that asks for nothing leaves the editor alone. */
  lemma NoRequestNoChange(d: Doc, textarea: Option<Selection>, e: KeyEvent)
    requires HandleKeyDown(e).requests == []
    ensures PressKey(d, textarea, e) == Insertion(d, None)
  {
  }

  /** Cmd behaves as Ctrl. */
  lemma MetaActsAsCtrl(key: string, shift: bool)
    ensures HandleKeyDown(KeyEvent(key, false, true, shift)) == HandleKeyDown(KeyEvent(key, true, false, shift))
  {
  }

  /** Ctrl+Shift+I matches the `'i'` case of both switches: italic is asked
      for first and the image second; the image is what the document gets. */
  lemma CtrlShiftIAsksTwice(d: Doc, textarea: Option<Selection>, key: string)
    requires key == "i" || key == "I"
    ensures HandleKeyDown(KeyEvent(key, true, false, true)).requests
      == [Request("*斜体文本*", -4), Request("![图片描述](图片链接)", -6)]
    ensures PressKey(d, textarea, KeyEvent(key, true, false, true))
      == InsertTextAtCursor(d, textarea, "![图片描述](图片链接)", -6)
  {
    var reqs := HandleKeyDown(KeyEvent(key, true, false, true)).requests;
    assert Lower(key) == "i";
    LastRequestWins(d, textarea, reqs, Insertion(d, None));
  }

  /** Ctrl+Shift+C has no case in the first switch: only the code block. */
  lemma CtrlShiftCAsksOnce(key: string)
    requires key == "c" || key == "C"
    ensures HandleKeyDown(KeyEvent(key, true, false, true)).requests == [Request("```\n代码\n```", -4)]
  {
    assert Lower(key) == "c";
  }

  /** Every snippet offset keeps the caret inside the snippet. */
  lemma SnippetOffsetsInside(key: string)
    ensures CtrlSnippet(key).Some? ==>
      -|CtrlSnippet(key).value.text| <= CtrlSnippet(key).value.cursorOffset <= 0
    ensures CtrlShiftSnippet(key).Some? ==>
      -|CtrlShiftSnippet(key).value.text| <= CtrlShiftSnippet(key).value.cursorOffset <= 0
  {
  }
}

=== FILE: editor_stats.dfy ===
/** The status line of the editor pane (`stats` in MarkdownEditor.tsx):
    characters, words and lines of the current content, together with the
    independent definitions they are proved to agree with. */
module EditorStats {
  import opened JsText

  datatype Stats = Stats(characters: nat, words: nat, lines: nat)

  /** `content.trim() ? content.trim().split(/\s+/).length : 0`. */
  function Words(content: string): nat {
    var t := Trim(content);
    if t != [] then |SplitWhiteSpace(t)| else 0
  }

  /** `content.split('\n').length`. */
  function Lines(content: string): nat {
    |SplitChar(content, '\n')|
  }

  /** The three figures shown above the text area. */
  function StatsOf(content: string): (r: Stats)
    ensures r.characters == Utf16Length(content)
    ensures r.lines == multiset(content)['\n'] + 1
    ensures r.lines >= 1
    ensures r.words == WordCount(content)
    ensures r.words <= r.characters
    ensures r.words == 0 <==> AllWhiteSpace(content)
  {
    LinesCountNewlines(content);
    WordsCountsRuns(content);
    WordCountBounds(content);
    Stats(Utf16Length(content), Words(content), Lines(content))
  }

  // ---------------------------------------------------------------------------
  // lines
  // ---------------------------------------------------------------------------

  /** One more piece than there are separators. */
  lemma {:induction false} SplitCountsSeparators(s: string, c: char)
    ensures |SplitChar(s, c)| == multiset(s)[c] + 1
    decreases |s|
  {
    if c in s {
      var i := IndexOf(s, c);
      assert s == s[..i] + [c] + s[i + 1..];
      assert multiset(s[..i])[c] == 0;
      SplitCountsSeparators(s[i + 1..], c);
    } else {
      assert multiset(s)[c] == 0;
    }
  }

  /** Joining the pieces with the separator gives the text back. */
  lemma {:induction false} SplitJoinRoundTrip(s: string, c: char)
    ensures Join(SplitChar(s, c), c) == s
    decreases |s|
  {
    if c in s {
      var i := IndexOf(s, c);
      var rest := SplitChar(s[i + 1..], c);
      assert SplitChar(s, c) == [s[..i]] + rest;
      SplitJoinRoundTrip(s[i + 1..], c);
      JoinCons(s[..i], rest, c);
      assert s == s[..i] + [c] + s[i + 1..];
    }
  }

  lemma JoinCons(w: string, rest: seq<string>, c: char)
    requires |rest| >= 1
    ensures Join([w] + rest, c) == w + [c] + Join(rest, c)
  {
    assert ([w] + rest)[0] == w && ([w] + rest)[1..] == rest;
  }

  lemma LinesCountNewlines(content: string)
    ensures Lines(content) == multiset(content)['\n'] + 1
  {
    SplitCountsSeparators(content, '\n');
  }

  // ---------------------------------------------------------------------------
  // words
  // ---------------------------------------------------------------------------

  /** Reference definition: the number of maximal runs of non-white-space
      units, counted from the left. */
  function WordCount(s: string): nat
    decreases |s|
  {
    if s == [] then 0
    else if IsWhiteSpace(s[0]) then WordCount(s[1..])
    else 1 + WordCount(s[FirstWhiteSpace(s)..])
  }

  /** A run of white space in front of a text adds no word. */
  lemma {:induction false} WordCountSkipsWhiteSpace(s: string, k: nat)
    requires k <= |s| && AllWhiteSpace(s[..k])
    ensures WordCount(s) == WordCount(s[k..])
    decreases k
  {
    if k > 0 {
      assert IsWhiteSpace(s[..k][0]);
      assert s[1..][..k - 1] == s[1..k];
      WordCountSkipsWhiteSpace(s[1..], k - 1);
      assert s[1..][k - 1..] == s[k..];
    }
  }

  /** A run of white space behind a text adds no word. */
  lemma {:induction false} WordCountIgnoresTrailingWhiteSpace(s: string, w: string)
    requires AllWhiteSpace(w)
    ensures WordCount(s + w) == WordCount(s)
    decreases |s|
  {
    if s == [] {
      assert s + w == w;
      WordCountSkipsWhiteSpace(w, |w|);
    } else if IsWhiteSpace(s[0]) {
      assert (s + w)[1..] == s[1..] + w;
      WordCountIgnoresTrailingWhiteSpace(s[1..], w);
    } else {
      var p := FirstWhiteSpace(s);
      if p < |s| {
        FirstWhiteSpaceOfPrefix(s, w);
        assert (s + w)[p..] == s[p..] + w;
        WordCountIgnoresTrailingWhiteSpace(s[p..], w);
      } else {
        FirstWhiteSpaceOfPrefix(s, w);
        assert (s + w)[p..] == w;
        WordCountSkipsWhiteSpace(w, |w|);
        assert s[p..] == [];
      }
    }
  }

  /** Appending white space does not move an earlier white-space unit, and
      ends a text that had none. */
  lemma FirstWhiteSpaceOfPrefix(s: string, w: string)
    requires AllWhiteSpace(w)
    ensures FirstWhiteSpace(s) < |s| ==> FirstWhiteSpace(s + w) == FirstWhiteSpace(s)
    ensures FirstWhiteSpace(s) == |s| ==> FirstWhiteSpace(s + w) == |s|
  {
    var p := FirstWhiteSpace(s);
    var q := FirstWhiteSpace(s + w);
    if p < |s| {
      assert (s + w)[p] == s[p];
    } else if w != [] {
      assert (s + w)[|s|] == w[0];
    }
  }

  /** On a text with no white space at either end, the `/\s+/` split yields
      one piece per word. */
  lemma {:induction false} SplitCountsWords(s: string)
    requires s != [] && !IsWhiteSpace(s[0]) && !IsWhiteSpace(s[|s| - 1])
    ensures |SplitWhiteSpace(s)| == WordCount(s)
    decreases |s|
  {
    var p := FirstWhiteSpace(s);
    if p == |s| {
      assert s[p..] == [];
    } else {
      var rest := TrimStart(s[p..]);
      assert s[p..] == s[p..][..|s[p..]| - |rest|] + rest;
      WordCountSkipsWhiteSpace(s[p..], |s[p..]| - |rest|);
      assert rest != [];
      assert rest[|rest| - 1] == s[|s| - 1];
      SplitCountsWords(rest);
    }
  }

  /** The editor's word figure is the number of maximal non-white-space runs. */
  lemma WordsCountsRuns(content: string)
    ensures Words(content) == WordCount(content)
  {
    var t := TrimStart(content);
    WordCountTrimStart(content);
    WordCountTrimEnd(t);
    if Trim(content) != [] {
      SplitCountsWords(Trim(content));
    }
  }

  lemma WordCountTrimStart(s: string)
    ensures WordCount(TrimStart(s)) == WordCount(s)
  {
    var t := TrimStart(s);
    WordCountSkipsWhiteSpace(s, |s| - |t|);
  }

  lemma WordCountTrimEnd(t: string)
    ensures WordCount(TrimEnd(t)) == WordCount(t)
  {
    var r := TrimEnd(t);
    assert t == r + t[|r|..];
    WordCountIgnoresTrailingWhiteSpace(r, t[|r|..]);
  }

  /** No more words than units; none exactly for white-space-only text. */
  lemma {:induction false} WordCountBounds(s: string)
    ensures WordCount(s) <= |s|
    ensures WordCount(s) == 0 <==> AllWhiteSpace(s)
    decreases |s|
  {
    if s != [] {
      if IsWhiteSpace(s[0]) {
        WordCountBounds(s[1..]);
        if AllWhiteSpace(s[1..]) {
          forall i | 0 <= i < |s| ensures IsWhiteSpace(s[i]) {
            if i > 0 { assert s[i] == s[1..][i - 1]; }
          }
        } else {
          var j :| 0 <= j < |s[1..]| && !IsWhiteSpace(s[1..][j]);
          assert s[j + 1] == s[1..][j];
        }
      } else {
        WordCountBounds(s[FirstWhiteSpace(s)..]);
      }
    }
  }
}

=== FILE: editor_text.dfy ===
/** The text arithmetic of `insertTextAtCursor` in MarkdownEditor.tsx: the
    selection is replaced by the inserted text, and the caret is placed
    relative to the end of what was inserted. */
module EditorText {
  import opened JsText

  /** The text area's `selectionStart` / `selectionEnd`. */
  datatype Selection = Selection(start: int, end: int)

  /** What the DOM guarantees of a text area's selection. */
  predicate ValidSelection(sel: Selection, len: nat) {
    0 <= sel.start <= sel.end <= len
  }

  /** `content.substring(0, start) + text + content.substring(end)`. */
  function Splice(content: string, sel: Selection, text: string): (r: string)
    ensures ValidSelection(sel, |content|) ==>
      && r == content[..sel.start] + text + content[sel.end..]
      && |r| == |content| - (sel.end - sel.start) + |text|
      && r[..sel.start] == content[..sel.start]
      && r[sel.start..sel.start + |text|] == text
      && r[sel.start + |text|..] == content[sel.end..]
  {
    Substring(content, 0, sel.start) + text + SubstringFrom(content, sel.end)
  }

  /** The caret after an insertion: `start + text.length + cursorOffset`. */
  function CaretAfter(sel: Selection, text: string, cursorOffset: int): (r: int)
    ensures -|text| <= cursorOffset <= 0 ==> sel.start <= r <= sel.start + |text|
  {
    sel.start + |text| + cursorOffset
  }

  /** Undo: splicing the original selected text back over the inserted text
      restores the content. */
  lemma SpliceUndo(content: string, sel: Selection, text: string)
    requires ValidSelection(sel, |content|)
    ensures
      var after := Splice(content, sel, text);
      Splice(after, Selection(sel.start, sel.start + |text|), content[sel.start..sel.end]) == content
  {
    var after := Splice(content, sel, text);
    var back := Splice(after, Selection(sel.start, sel.start + |text|), content[sel.start..sel.end]);
    assert back == content[..sel.start] + content[sel.start..sel.end] + content[sel.end..];
    assert content == content[..sel.start] + content[sel.start..sel.end] + content[sel.end..];
  }
}

=== FILE: jstext.dfy ===
/** The slice of JavaScript string semantics the editor relies on:
    `substring` with its index clamping, `trim`, `split` on a character and on
    the regular expression `/\s+/`, and `toLowerCase` as far as key names need
    it. A `string` is a sequence of Unicode scalar values. JavaScript counts
    UTF-16 code units, two for a code point beyond the Basic Multilingual
    Plane; `Utf16Length` gives that count. Every other operation here looks
    only at characters the editor writes as literals, all of which lie in the
    Basic Multilingual Plane. */
module JsText {

  // ---------------------------------------------------------------------------
  // substring
  // ---------------------------------------------------------------------------

  /** An index argument of `substring`, clamped into `[0, len]`. */
  function ClampIndex(i: int, len: nat): (r: nat)
    ensures r <= len
    ensures 0 <= i <= len ==> r == i
    ensures i < 0 ==> r == 0
    ensures i > len ==> r == len
  {
    if i < 0 then 0 else if i > len then len else i
  }

  /** `s.substring(a, b)`: both arguments are clamped into the string and the
      smaller one is taken as the start. */
  function Substring(s: string, a: int, b: int): (r: string)
    ensures |r| <= |s|
    ensures 0 <= a <= b <= |s| ==> r == s[a..b]
    ensures 0 <= b <= a <= |s| ==> r == s[b..a]
    ensures a <= 0 && 0 <= b <= |s| ==> r == s[..b]
    ensures b <= 0 && 0 <= a <= |s| ==> r == s[..a]
    ensures 0 <= a <= |s| <= b ==> r == s[a..]
    ensures 0 <= b <= |s| <= a ==> r == s[b..]
    ensures (a <= 0 && |s| <= b) || (b <= 0 && |s| <= a) ==> r == s
    ensures (a <= 0 && b <= 0) || (|s| <= a && |s| <= b) ==> r == []
  {
    var i := ClampIndex(a, |s|);
    var j := ClampIndex(b, |s|);
    if i <= j then s[i..j] else s[j..i]
  }

  /** `s.substring(a)`: from a clamped index to the end. */
  function SubstringFrom(s: string, a: int): (r: string)
    ensures |r| <= |s|
    ensures 0 <= a <= |s| ==> r == s[a..]
    ensures a > |s| ==> r == []
  {
    Substring(s, a, |s|)
  }

  // ---------------------------------------------------------------------------
  // length
  // ---------------------------------------------------------------------------

  /** A code point beyond the Basic Multilingual Plane takes a surrogate pair. */
  predicate Astral(c: char) {
    c as int > 0xFFFF
  }

  /** `s.length`: UTF-16 code units, two for each astral code point. */
  function Utf16Length(s: string): (r: nat)
    ensures |s| <= r <= 2 * |s|
    ensures r == |s| <==> forall i :: 0 <= i < |s| ==> !Astral(s[i])
    decreases |s|
  {
    if s == [] then 0
    else
      var rest := Utf16Length(s[1..]);
      assert forall i :: 1 <= i < |s| ==> s[i] == s[1..][i - 1];
      (if Astral(s[0]) then 2 else 1) + rest
  }

  /** Lengths add up over concatenation. */
  lemma {:induction false} Utf16LengthConcat(a: string, b: string)
    ensures Utf16Length(a + b) == Utf16Length(a) + Utf16Length(b)
    decreases |a|
  {
    if a == [] {
      assert a + b == b;
    } else {
      assert (a + b)[0] == a[0] && (a + b)[1..] == a[1..] + b;
      Utf16LengthConcat(a[1..], b);
    }
  }

  // ---------------------------------------------------------------------------
  // white space, as `trim` and the regular-expression class `\s` see it
  // ---------------------------------------------------------------------------

  /** ECMAScript WhiteSpace and LineTerminator code points: the set both
      `String.prototype.trim` and `\s` use. */
  predicate IsWhiteSpace(c: char) {
    || c == '\t' || c == '\n' || c == '\U{000B}' || c == '\U{000C}' || c == '\r'
    || c == ' ' || c == '\U{00A0}' || c == '\U{1680}'
    || ('\U{2000}' <= c <= '\U{200A}')
    || c == '\U{2028}' || c == '\U{2029}' || c == '\U{202F}' || c == '\U{205F}'
    || c == '\U{3000}' || c == '\U{FEFF}'
  }

  predicate AllWhiteSpace(s: string) {
    forall i :: 0 <= i < |s| ==> IsWhiteSpace(s[i])
  }

  /** The length of the leading white-space run. */
  function LeadingWhiteSpace(s: string): (k: nat)
    ensures k <= |s|
    ensures forall i :: 0 <= i < k ==> IsWhiteSpace(s[i])
    ensures k < |s| ==> !IsWhiteSpace(s[k])
    decreases |s|
  {
    if s != [] && IsWhiteSpace(s[0]) then 1 + LeadingWhiteSpace(s[1..]) else 0
  }

  /** Where the trailing white-space run starts. */
  function TrailingWhiteSpace(s: string): (k: nat)
    ensures k <= |s|
    ensures forall i :: k <= i < |s| ==> IsWhiteSpace(s[i])
    ensures k > 0 ==> !IsWhiteSpace(s[k - 1])
    decreases |s|
  {
    if s != [] && IsWhiteSpace(s[|s| - 1]) then
      var k := TrailingWhiteSpace(s[..|s| - 1]);
      assert forall i :: k <= i < |s| - 1 ==> s[..|s| - 1][i] == s[i];
      k
    else |s|
  }

  /** Drops the leading white space. */
  function TrimStart(s: string): (r: string)
    ensures |r| <= |s| && r == s[|s| - |r|..]
    ensures AllWhiteSpace(s[..|s| - |r|])
    ensures r != [] ==> !IsWhiteSpace(r[0])
    ensures s != [] && IsWhiteSpace(s[0]) ==> |r| < |s|
  {
    s[LeadingWhiteSpace(s)..]
  }

  /** Drops the trailing white space. */
  function TrimEnd(s: string): (r: string)
    ensures |r| <= |s| && r == s[..|r|]
    ensures AllWhiteSpace(s[|r|..])
    ensures r != [] ==> !IsWhiteSpace(r[|r| - 1])
  {
    s[..TrailingWhiteSpace(s)]
  }

  /** `s.trim()`. */
  function Trim(s: string): (r: string)
    ensures r != [] ==> !IsWhiteSpace(r[0]) && !IsWhiteSpace(r[|r| - 1])
    ensures r == [] <==> AllWhiteSpace(s)
    ensures exists i, j :: 0 <= i <= j <= |s| && r == s[i..j] && AllWhiteSpace(s[..i]) && AllWhiteSpace(s[j..])
  {
    TrimEmpty(s);
    TrimInfix(s);
    TrimEnd(TrimStart(s))
  }

  lemma TrimEmpty(s: string)
    ensures TrimEnd(TrimStart(s)) == [] <==> AllWhiteSpace(s)
  {
    var t := TrimStart(s);
    var r := TrimEnd(t);
    if r == [] {
      assert t[|r|..] == t;
      assert s == s[..|s| - |t|] + t;
      AllWhiteSpaceConcat(s[..|s| - |t|], t);
    }
    if AllWhiteSpace(s) {
      TrimStartAllWhiteSpace(s);
    }
  }

  lemma TrimInfix(s: string)
    ensures var r := TrimEnd(TrimStart(s));
      exists i, j :: 0 <= i <= j <= |s| && r == s[i..j] && AllWhiteSpace(s[..i]) && AllWhiteSpace(s[j..])
  {
    var t := TrimStart(s);
    var r := TrimEnd(t);
    var i := |s| - |t|;
    var j := i + |r|;
    assert r == s[i..j] && AllWhiteSpace(s[..i]);
    assert AllWhiteSpace(s[j..]) by { assert s[j..] == t[|r|..]; }
  }

  lemma AllWhiteSpaceConcat(a: string, b: string)
    requires AllWhiteSpace(a) && AllWhiteSpace(b)
    ensures AllWhiteSpace(a + b)
  {
    forall i | 0 <= i < |a + b| ensures IsWhiteSpace((a + b)[i]) {
      if i < |a| { assert (a + b)[i] == a[i]; } else { assert (a + b)[i] == b[i - |a|]; }
    }
  }

  lemma {:induction false} TrimStartAllWhiteSpace(s: string)
    requires AllWhiteSpace(s)
    ensures TrimStart(s) == []
    decreases |s|
  {
    if s != [] {
      assert IsWhiteSpace(s[0]);
      assert forall i :: 0 <= i < |s[1..]| ==> s[1..][i] == s[i + 1];
      TrimStartAllWhiteSpace(s[1..]);
    }
  }

  /** Index of the first white-space unit, or `|s|` when there is none. */
  function FirstWhiteSpace(s: string): (r: nat)
    ensures r <= |s|
    ensures forall i :: 0 <= i < r ==> !IsWhiteSpace(s[i])
    ensures r < |s| ==> IsWhiteSpace(s[r])
    decreases |s|
  {
    if s == [] || IsWhiteSpace(s[0]) then 0 else 1 + FirstWhiteSpace(s[1..])
  }

  /** `s.split(/\s+/)`: the leftmost, longest white-space run is the
      separator; a run at either end leaves an empty piece there. */
  function SplitWhiteSpace(s: string): (r: seq<string>)
    ensures |r| >= 1
    ensures forall i :: 0 <= i < |r| ==> FirstWhiteSpace(r[i]) == |r[i]|
    ensures r[0] == [] <==> s == [] || IsWhiteSpace(s[0])
    ensures forall i :: 0 < i < |r| - 1 ==> r[i] != []
    decreases |s|
  {
    var p := FirstWhiteSpace(s);
    if p == |s| then [s]
    else
      [s[..p]] + SplitWhiteSpace(TrimStart(s[p..]))
  }

  /** The last piece is empty exactly when the text is empty or ends with
      white space, as the first piece is at the other end. */
  lemma {:induction false} SplitWhiteSpaceLastPiece(s: string)
    ensures var r := SplitWhiteSpace(s);
      r[|r| - 1] == [] <==> s == [] || IsWhiteSpace(s[|s| - 1])
    decreases |s|
  {
    var p := FirstWhiteSpace(s);
    if p == |s| {
      assert SplitWhiteSpace(s) == [s];
    } else {
      var t := TrimStart(s[p..]);
      SplitWhiteSpaceLastPiece(t);
      LastPieceStep(s, p, SplitWhiteSpace(t));
      assert SplitWhiteSpace(s) == [s[..p]] + SplitWhiteSpace(t);
    }
  }

  lemma LastPieceStep(s: string, p: nat, rest: seq<string>)
    requires p == FirstWhiteSpace(s) < |s|
    requires |rest| >= 1
    requires var t := TrimStart(s[p..]);
      rest[|rest| - 1] == [] <==> t == [] || IsWhiteSpace(t[|t| - 1])
    ensures ([s[..p]] + rest)[|rest|] == [] <==> IsWhiteSpace(s[|s| - 1])
  {
    assert ([s[..p]] + rest)[|rest|] == rest[|rest| - 1];
    RestKeepsLast(s, p);
  }

  /** What follows the first white-space run ends as `s` does, or is empty
      when `s` ends in that run. */
  lemma RestKeepsLast(s: string, p: nat)
    requires p == FirstWhiteSpace(s) < |s|
    ensures var t := TrimStart(s[p..]);
      && (t == [] ==> IsWhiteSpace(s[|s| - 1]))
      && (t != [] ==> t[|t| - 1] == s[|s| - 1])
  {
    var u := s[p..];
    var t := TrimStart(u);
    assert u[|u| - 1] == s[|s| - 1];
    if t == [] {
      assert AllWhiteSpace(u[..|u|]);
    } else {
      assert t[|t| - 1] == u[|u| - 1];
    }
  }

  /** The pieces joined back without separators. */
  function Flatten(parts: seq<string>): string {
    if parts == [] then [] else parts[0] + Flatten(parts[1..])
  }

  /** `s` with every white-space unit removed. */
  function NonWhiteSpace(s: string): string
    decreases |s|
  {
    if s == [] then []
    else (if IsWhiteSpace(s[0]) then [] else [s[0]]) + NonWhiteSpace(s[1..])
  }

  /** Splitting keeps every other unit, in order: the pieces put back together
      are `s` with its white space removed. */
  lemma {:induction false} SplitWhiteSpaceKeepsText(s: string)
    ensures Flatten(SplitWhiteSpace(s)) == NonWhiteSpace(s)
    decreases |s|
  {
    var p := FirstWhiteSpace(s);
    if p == |s| {
      NonWhiteSpaceOfWord(s);
      FlattenCons(s, []);
    } else {
      var t := TrimStart(s[p..]);
      NonWhiteSpaceAcrossGap(s, p);
      SplitWhiteSpaceKeepsText(t);
      FlattenCons(s[..p], SplitWhiteSpace(t));
    }
  }

  lemma FlattenCons(w: string, rest: seq<string>)
    ensures Flatten([w] + rest) == w + Flatten(rest)
  {
    assert ([w] + rest)[1..] == rest;
  }

  lemma NonWhiteSpaceAcrossGap(s: string, p: nat)
    requires p == FirstWhiteSpace(s) < |s|
    ensures NonWhiteSpace(s) == s[..p] + NonWhiteSpace(TrimStart(s[p..]))
  {
    assert s == s[..p] + s[p..];
    NonWhiteSpaceConcat(s[..p], s[p..]);
    NonWhiteSpaceOfWord(s[..p]);
    NonWhiteSpaceTrimStart(s[p..]);
  }

  /** Leading white space contributes nothing once white space is removed. */
  lemma NonWhiteSpaceTrimStart(u: string)
    ensures NonWhiteSpace(u) == NonWhiteSpace(TrimStart(u))
  {
    var t := TrimStart(u);
    var k := |u| - |t|;
    assert u == u[..k] + t;
    NonWhiteSpaceConcat(u[..k], t);
    NonWhiteSpaceOfGap(u[..k]);
  }

  lemma {:induction false} NonWhiteSpaceConcat(a: string, b: string)
    ensures NonWhiteSpace(a + b) == NonWhiteSpace(a) + NonWhiteSpace(b)
    decreases |a|
  {
    if a == [] {
      assert a + b == b;
    } else {
      assert (a + b)[0] == a[0] && (a + b)[1..] == a[1..] + b;
      NonWhiteSpaceConcat(a[1..], b);
    }
  }

  lemma {:induction false} NonWhiteSpaceOfWord(s: string)
    requires FirstWhiteSpace(s) == |s|
    ensures NonWhiteSpace(s) == s
    decreases |s|
  {
    if s != [] {
      assert !IsWhiteSpace(s[0]);
      assert forall i :: 0 <= i < |s[1..]| ==> s[1..][i] == s[i + 1];
      NonWhiteSpaceOfWord(s[1..]);
    }
  }

  lemma {:induction false} NonWhiteSpaceOfGap(s: string)
    requires AllWhiteSpace(s)
    ensures NonWhiteSpace(s) == []
    decreases |s|
  {
    if s != [] {
      assert IsWhiteSpace(s[0]);
      assert forall i :: 0 <= i < |s[1..]| ==> s[1..][i] == s[i + 1];
      NonWhiteSpaceOfGap(s[1..]);
    }
  }

  // ---------------------------------------------------------------------------
  // split on one character
  // ---------------------------------------------------------------------------

  /** Index of the first occurrence of `c`. */
  function IndexOf(s: string, c: char): (r: nat)
    requires c in s
    ensures r < |s| && s[r] == c
    ensures c !in s[..r]
    decreases |s|
  {
    if s[0] == c then 0
    else
      assert c in s[1..] by { var k :| 0 <= k < |s| && s[k] == c; assert s[1..][k - 1] == c; }
      var k := IndexOf(s[1..], c);
      assert s[..k + 1] == [s[0]] + s[1..][..k];
      1 + k
  }

  /** `s.split(c)` for a one-unit separator. */
  function SplitChar(s: string, c: char): (r: seq<string>)
    ensures |r| >= 1
    ensures forall i :: 0 <= i < |r| ==> c !in r[i]
    decreases |s|
  {
    if c !in s then [s]
    else
      var i := IndexOf(s, c);
      [s[..i]] + SplitChar(s[i + 1..], c)
  }

  /** `parts.join(c)`. */
  function Join(parts: seq<string>, c: char): string
    requires |parts| >= 1
  {
    if |parts| == 1 then parts[0] else parts[0] + [c] + Join(parts[1..], c)
  }

  // ---------------------------------------------------------------------------
  // toLowerCase, for key names
  // ---------------------------------------------------------------------------

  /** Lower-case mapping of one unit: the ASCII capitals, and KELVIN SIGN
      U+212A, the one non-ASCII code point whose lower case is an ASCII letter.
      Every other unit is left alone; no other unit lower-cases to an ASCII
      letter, so comparisons against ASCII letters come out as in JavaScript. */
  function LowerChar(c: char): (r: char)
    ensures 'A' <= c <= 'Z' ==> 'a' <= r <= 'z' && r as int == c as int + 32
    ensures 'a' <= r <= 'z' ==> 'a' <= c <= 'z' || 'A' <= c <= 'Z' || c == '\U{212A}'
  {
    if 'A' <= c <= 'Z' then (c as int + 32) as char
    else if c == '\U{212A}' then 'k'
    else c
  }

  /** `s.toLowerCase()`, unit by unit. */
  function Lower(s: string): (r: string)
    ensures |r| == |s|
    ensures forall i :: 0 <= i < |s| ==> r[i] == LowerChar(s[i])
  {
    seq(|s|, i requires 0 <= i < |s| => LowerChar(s[i]))
  }
}

=== FILE: panes.dfy ===
/** The resizable split view (ResizablePanes.tsx): a drag flag and the left
    pane's share of the width in percent, recomputed from the mouse position
    while dragging and clamped so that neither pane is narrower than
    `minPaneSize` pixels. Arithmetic is on reals; the container's position
    and width are inputs. */
module Panes {
  import opened Wrappers

  const DefaultSplit: real := 50.0
  const DefaultMinPaneSize: real := 200.0

  /** `splitPercentage`, `isDragging`, and the `minPaneSize` prop. */
  datatype Panes = Panes(split: real, dragging: bool, minPaneSize: real)

  /** The container's bounding box, as far as the handler reads it. */
  datatype Rect = Rect(left: real, width: real)

  /** On mount: the initial split, not dragging. Both props default as in the
      component's parameter list. */
  function Create(initialSplit: real := DefaultSplit, minPaneSize: real := DefaultMinPaneSize): (r: Panes)
    ensures !r.dragging && r.split == initialSplit && r.minPaneSize == minPaneSize
  {
    Panes(initialSplit, false, minPaneSize)
  }

  /** `handleMouseDown` on the divider. */
  function MouseDown(p: Panes): (r: Panes)
    ensures r.dragging && r.split == p.split && r.minPaneSize == p.minPaneSize
  {
    p.(dragging := true)
  }

  /** `handleMouseUp` anywhere in the document. */
  function MouseUp(p: Panes): (r: Panes)
    ensures !r.dragging && r.split == p.split && r.minPaneSize == p.minPaneSize
  {
    p.(dragging := false)
  }

  function Max(a: real, b: real): real { if a >= b then a else b }
  function Min(a: real, b: real): real { if a <= b then a else b }

  /** The smallest share in percent that still leaves `minPaneSize` pixels. */
  function MinPercentage(minPaneSize: real, width: real): real
    requires width > 0.0
  {
    minPaneSize / width * 100.0
  }

  /** The new split for a mouse at `mouseX` pixels from the container's left
      edge: `max(min%, min(100 - min%, mouseX / width * 100))`. */
  function SplitFor(mouseX: real, width: real, minPaneSize: real): (r: real)
    requires width > 0.0
    ensures var lo := MinPercentage(minPaneSize, width);
      && (lo <= 50.0 ==> lo <= r <= 100.0 - lo)
      && (lo <= mouseX / width * 100.0 <= 100.0 - lo ==> r == mouseX / width * 100.0)
      && (lo > 50.0 ==> r == lo)
  {
    var lo := MinPercentage(minPaneSize, width);
    Max(lo, Min(100.0 - lo, mouseX / width * 100.0))
  }

  /** `handleMouseMove`: ignored unless dragging and mounted; otherwise the
      split follows the mouse, clamped. */
  function MouseMove(p: Panes, container: Option<Rect>, clientX: real): (r: Panes)
    requires container.Some? ==> container.value.width > 0.0
    ensures r.dragging == p.dragging && r.minPaneSize == p.minPaneSize
    ensures !p.dragging || container.None? ==> r == p
  {
    if !p.dragging || container.None? then p
    else
      var rect := container.value;
      p.(split := SplitFor(clientX - rect.left, rect.width, p.minPaneSize))
  }

  /** The two panes' widths in percent. */
  function Widths(p: Panes): (r: (real, real))
    ensures r.0 + r.1 == 100.0
    ensures r.0 == p.split
  {
    (p.split, 100.0 - p.split)
  }

  // ---------------------------------------------------------------------------
  // properties
  // ---------------------------------------------------------------------------

  /** When both panes can have `minPaneSize` pixels at all, after any drag
      step each of them has at least that many. */
  lemma DragKeepsMinimumWidths(mouseX: real, width: real, minPaneSize: real)
    requires width > 0.0
    requires MinPercentage(minPaneSize, width) <= 50.0
    ensures var s := SplitFor(mouseX, width, minPaneSize);
      s / 100.0 * width >= minPaneSize && (100.0 - s) / 100.0 * width >= minPaneSize
  {
    var lo := MinPercentage(minPaneSize, width);
    var s := SplitFor(mouseX, width, minPaneSize);
    assert lo / 100.0 * width == minPaneSize;
    assert s / 100.0 * width >= lo / 100.0 * width by {
      assert s >= lo;
      MulMonotone(s / 100.0, lo / 100.0, width);
    }
    assert (100.0 - s) / 100.0 * width >= lo / 100.0 * width by {
      assert 100.0 - s >= lo;
      MulMonotone((100.0 - s) / 100.0, lo / 100.0, width);
    }
  }

  lemma MulMonotone(a: real, b: real, w: real)
    requires a >= b && w > 0.0
    ensures a * w >= b * w
  {
  }

  /** Moving the mouse right never moves the divider left. */
  lemma SplitMonotone(x1: real, x2: real, width: real, minPaneSize: real)
    requires width > 0.0 && x1 <= x2
    ensures SplitFor(x1, width, minPaneSize) <= SplitFor(x2, width, minPaneSize)
  {
    assert x1 / width <= x2 / width by {
      MulMonotone(x2, x1, 1.0 / width);
    }
  }

  /** A drag step followed by another at the pixel position the divider now
      has changes nothing, provided the bounds are satisfiable. */
  lemma SplitIdempotent(mouseX: real, width: real, minPaneSize: real)
    requires width > 0.0 && MinPercentage(minPaneSize, width) <= 50.0
    ensures var s := SplitFor(mouseX, width, minPaneSize);
      SplitFor(s / 100.0 * width, width, minPaneSize) == s
  {
    var s := SplitFor(mouseX, width, minPaneSize);
    var x := s / 100.0 * width;
    assert x / width == s / 100.0;
    assert x / width * 100.0 == s;
    var lo := MinPercentage(minPaneSize, width);
    assert lo <= x / width * 100.0 <= 100.0 - lo;
  }

  /** With the default props the panes start at equal widths. */
  lemma DefaultsSplitEvenly()
    ensures Widths(Create()) == (50.0, 50.0)
    ensures Create().minPaneSize == 200.0
  {
  }

  /** Only a press on the divider starts a drag, and only the drag moves the
      divider; release stops it. */
  lemma DragLifecycle(p: Panes, rect: Rect, x: real)
    requires rect.width > 0.0 && !p.dragging
    ensures MouseMove(p, Some(rect), x) == p
    ensures MouseMove(MouseDown(p), Some(rect), x).split == SplitFor(x - rect.left, rect.width, p.minPaneSize)
    ensures MouseMove(MouseUp(MouseDown(p)), Some(rect), x) == p
  {
  }
}

=== FILE: render.dfy ===
/** The Markdown rendering glue of utils/markdown.ts and the preview update
    of MarkdownEditor.tsx. The `marked` library and highlight.js are not part
    of this model: their results are inputs, and either may fail. */
module Render {
  import opened Wrappers
  import opened Scan
  import opened Debounce
  import opened JsText

  // ---------------------------------------------------------------------------
  // parseMarkdown and the preview update
  // ---------------------------------------------------------------------------

  /** What awaiting `marked(markdown)` gives: a string, some other value, or
      a thrown error. */
  datatype MarkedOutcome = ReturnedString(html: string) | ReturnedOther | Threw

  /** A settled promise of a string. */
  datatype Settled = Fulfilled(value: string) | Rejected

  const ParseErrorHtml: string := "<p>解析错误</p>"
  const PreviewErrorHtml: string := "<p>预览更新失败</p>"

  /** `parseMarkdown`: a string result passes through, any other value becomes
      the empty string, and a thrown error becomes a fixed paragraph. */
  function ParseMarkdown(outcome: MarkedOutcome): (r: Settled)
    ensures r.Fulfilled?
    ensures outcome.ReturnedString? ==> r.value == outcome.html
    ensures outcome.ReturnedOther? ==> r.value == []
    ensures outcome.Threw? ==> r.value == ParseErrorHtml
  {
    match outcome
    case ReturnedString(html) => Fulfilled(html)
    case ReturnedOther => Fulfilled([])
    case Threw => Fulfilled(ParseErrorHtml)
  }

  /** The body of `debouncedUpdatePreview`: the preview becomes the parsed
      HTML, or a failure paragraph if the parse rejected. */
  function UpdatePreview(parsed: Settled): (r: string)
    ensures parsed.Fulfilled? ==> r == parsed.value
    ensures parsed.Rejected? ==> r == PreviewErrorHtml
  {
    match parsed
    case Fulfilled(html) => html
    case Rejected => PreviewErrorHtml
  }

  /** Because `parseMarkdown` never rejects, the preview's own failure
      paragraph is never chosen: the preview is whatever `parseMarkdown`
      gave, and a failing `marked` shows the parse-error paragraph. */
  lemma PreviewNeverTakesFailureBranch(marked: string -> MarkedOutcome, markdown: string)
    ensures UpdatePreview(ParseMarkdown(marked(markdown))) == ParseMarkdown(marked(markdown)).value
    ensures marked(markdown).Threw? ==> UpdatePreview(ParseMarkdown(marked(markdown))) == ParseErrorHtml
  {
  }

  /** The editor debounces preview updates by 300 ms. */
  const PreviewDelay: nat := 300

  /** The previews written, one per render, in render order (each render is
      taken to complete before the next starts). */
  function Previews(marked: string -> MarkedOutcome, rendered: seq<string>): (r: seq<string>)
    ensures |r| == |rendered|
    ensures forall i :: 0 <= i < |r| ==> r[i] == ParseMarkdown(marked(rendered[i])).value
  {
    seq(|rendered|, i requires 0 <= i < |rendered| => UpdatePreview(ParseMarkdown(marked(rendered[i]))))
  }

  /** Typing a burst of edits less than 300 ms apart renders once, on the last
      text, and that render fills the preview. */
  lemma EditBurstRendersOnce(marked: string -> MarkedOutcome, edits: seq<CallAt<string>>)
    requires edits != [] && Burst(PreviewDelay, edits)
    ensures Invocations(PreviewDelay, edits) == [edits[|edits| - 1].args]
    ensures Previews(marked, Invocations(PreviewDelay, edits))
      == [ParseMarkdown(marked(edits[|edits| - 1].args)).value]
  {
    BurstInvokesOnce(PreviewDelay, edits);
  }

  // ---------------------------------------------------------------------------
  // renderer.link
  // ---------------------------------------------------------------------------

  /** An inline token of the link text; only its `raw` field is read. */
  datatype Token = Token(raw: Option<string>)

  /** `tokens.map(token => token.raw || '').join('')`. */
  function LinkText(tokens: seq<Token>): (r: string)
    ensures tokens == [] ==> r == []
    ensures |tokens| == 1 ==> r == tokens[0].raw.GetOr([])
  {
    if tokens == [] then [] else tokens[0].raw.GetOr([]) + LinkText(tokens[1..])
  }

  /** The text of a token list is the texts of its parts, in order. */
  lemma {:induction false} LinkTextAppend(a: seq<Token>, b: seq<Token>)
    ensures LinkText(a + b) == LinkText(a) + LinkText(b)
    decreases |a|
  {
    if a != [] {
      assert (a + b)[0] == a[0] && (a + b)[1..] == a[1..] + b;
      LinkTextAppend(a[1..], b);
    } else {
      assert a + b == b;
    }
  }

  const LinkOpen: string := "<a href=\""
  const TitleOpen: string := " title=\""
  const LinkTail: string := " target=\"_blank\" rel=\"noopener noreferrer\">"
  const LinkClose: string := "</a>"

  /** `renderer.link`: an anchor opening in a new tab; the title attribute
      only for a truthy title; nothing is escaped. */
  function RenderLink(href: string, title: Option<string>, tokens: seq<Token>): (r: string)
    ensures |r| >= |LinkOpen| + |href| + |LinkTail| + |LinkClose|
    ensures r[..|LinkOpen| + |href|] == LinkOpen + href
    ensures |r| >= |LinkTail + LinkText(tokens) + LinkClose|
    ensures r[|r| - |LinkTail + LinkText(tokens) + LinkClose|..] == LinkTail + LinkText(tokens) + LinkClose
  {
    var titleAttr := if Truthy(title) then TitleOpen + title.value + "\"" else [];
    var tail := LinkTail + LinkText(tokens) + LinkClose;
    var r := (LinkOpen + href + "\"" + titleAttr) + tail;
    assert r[..|LinkOpen| + |href|] == LinkOpen + href;
    assert r[|r| - |tail|..] == tail;
    r
  }

  /** The parts of an anchor as written by `RenderLink`. */
  datatype LinkParts = LinkParts(href: string, title: Option<string>, text: string)

  /** Reads an anchor back: the href up to its closing quote, an optional
      title up to its closing quote, the fixed `target`/`rel` attributes, and
      the text up to `</a>`. */
  function ParseLink(html: string): Option<LinkParts> {
    var afterOpen :- StripPrefix(html, LinkOpen);
    var hrefSplit :- SplitAt(afterOpen, '"');
    var titleSplit :- ParseTitle(hrefSplit.1);
    var text :- ParseBody(titleSplit.1);
    Some(LinkParts(hrefSplit.0, titleSplit.0, text))
  }

  /** The fixed attributes, then the text up to `</a>`. */
  function ParseBody(s: string): Option<string> {
    var body :- StripPrefix(s, LinkTail);
    StripSuffix(body, LinkClose)
  }

  function ParseTitle(s: string): Option<(Option<string>, string)> {
    match StripPrefix(s, TitleOpen)
    case None => Some((None, s))
    case Some(rest) =>
      var p :- SplitAt(rest, '"');
      Some((Some(p.0), p.1))
  }

  /** Round trip: with quote-free attribute values, the anchor reads back as
      the href, the title exactly when it is truthy, and the concatenated
      raw text of the tokens. */
  lemma LinkRoundTrip(href: string, title: Option<string>, tokens: seq<Token>)
    requires '"' !in href
    requires Truthy(title) ==> '"' !in title.value
    ensures ParseLink(RenderLink(href, title, tokens))
      == Some(LinkParts(href, if Truthy(title) then title else None, LinkText(tokens)))
  {
    if Truthy(title) {
      TitledLinkRoundTrip(href, title.value, tokens);
    } else {
      UntitledLinkRoundTrip(href, title, tokens);
    }
  }

  lemma TitledLinkRoundTrip(href: string, title: string, tokens: seq<Token>)
    requires '"' !in href && '"' !in title && title != []
    ensures ParseLink(RenderLink(href, Some(title), tokens)) == Some(LinkParts(href, Some(title), LinkText(tokens)))
  {
    var text := LinkText(tokens);
    var afterTitle := LinkTail + text + LinkClose;
    var tail := TitleOpen + title + "\"" + afterTitle;
    var html := RenderLink(href, Some(title), tokens);
    assert html == LinkOpen + (href + ['"'] + tail);
    StripPrefixOfConcat(LinkOpen, href + ['"'] + tail);
    SplitAtOfConcat(href, '"', tail);
    TitleReadBack(title, afterTitle);
    BodyReadBack(text);
    ParseLinkSteps(html, href + ['"'] + tail, href, tail, Some(title), afterTitle, text + LinkClose, text);
  }

  lemma UntitledLinkRoundTrip(href: string, title: Option<string>, tokens: seq<Token>)
    requires '"' !in href && !Truthy(title)
    ensures ParseLink(RenderLink(href, title, tokens)) == Some(LinkParts(href, None, LinkText(tokens)))
  {
    var text := LinkText(tokens);
    var tail := LinkTail + text + LinkClose;
    var html := RenderLink(href, title, tokens);
    assert html == LinkOpen + (href + ['"'] + tail);
    StripPrefixOfConcat(LinkOpen, href + ['"'] + tail);
    SplitAtOfConcat(href, '"', tail);
    NoTitleReadBack(text);
    BodyReadBack(text);
    ParseLinkSteps(html, href + ['"'] + tail, href, tail, None, tail, text + LinkClose, text);
  }

  /** `ParseLink` is the composition of its five steps. */
  lemma ParseLinkSteps(html: string, afterOpen: string, href: string, afterHref: string,
                       title: Option<string>, afterTitle: string, body: string, text: string)
    requires StripPrefix(html, LinkOpen) == Some(afterOpen)
    requires SplitAt(afterOpen, '"') == Some((href, afterHref))
    requires ParseTitle(afterHref) == Some((title, afterTitle))
    requires StripPrefix(afterTitle, LinkTail) == Some(body)
    requires StripSuffix(body, LinkClose) == Some(text)
    ensures ParseLink(html) == Some(LinkParts(href, title, text))
  {
    assert ParseBody(afterTitle) == Some(text);
  }

  lemma TitleReadBack(title: string, afterTitle: string)
    requires '"' !in title
    ensures ParseTitle(TitleOpen + title + "\"" + afterTitle) == Some((Some(title), afterTitle))
  {
    assert TitleOpen + title + "\"" + afterTitle == TitleOpen + (title + ['"'] + afterTitle);
    StripPrefixOfConcat(TitleOpen, title + ['"'] + afterTitle);
    SplitAtOfConcat(title, '"', afterTitle);
  }

  lemma NoTitleReadBack(text: string)
    ensures ParseTitle(LinkTail + text + LinkClose) == Some((None, LinkTail + text + LinkClose))
  {
    var s := LinkTail + text + LinkClose;
    assert s[2] == 'a';
    assert TitleOpen[2] == 'i';
    StripPrefixMismatch(s, TitleOpen, 2);
  }

  lemma BodyReadBack(text: string)
    ensures StripPrefix(LinkTail + text + LinkClose, LinkTail) == Some(text + LinkClose)
    ensures StripSuffix(text + LinkClose, LinkClose) == Some(text)
  {
    assert LinkTail + text + LinkClose == LinkTail + (text + LinkClose);
    StripPrefixOfConcat(LinkTail, text + LinkClose);
    StripSuffixOfConcat(text, LinkClose);
  }

  /** Nothing is escaped: a quote in the title closes the attribute early and
      the rest of the title is read as markup, so the anchor no longer has
      the shape `RenderLink` promises. */
  lemma QuoteInTitleEscapesAttribute()
    ensures ParseLink(RenderLink("u", Some("x\" onclick=\"y"), [])) == None
  {
    var rest := " onclick=\"y\"" + LinkTail + LinkClose;
    InjectedTitleLayout();
    assert StripPrefix(rest, LinkTail).None? by {
      assert rest[1] != LinkTail[1];
    }
    ForeignAttributeUnreadable("u", "x", rest);
  }

  /** For every title with a quote in it (and a quote-free href), the anchor
      no longer reads back with that title: the attribute ends at the first
      quote of the title. */
  lemma QuotedTitleNotReadBack(href: string, title: string, tokens: seq<Token>)
    requires '"' !in href && '"' in title
    ensures var parsed := ParseLink(RenderLink(href, Some(title), tokens));
      parsed.None? || parsed.value.title != Some(title)
  {
    var html := RenderLink(href, Some(title), tokens);
    var afterTitle := LinkTail + LinkText(tokens) + LinkClose;
    var tail := TitleOpen + title + "\"" + afterTitle;
    TitledLayout(href, title, tokens);
    HrefCut(html, href, tail);
    QuotedTitleCut(html, href + ['"'] + tail, href, title, afterTitle, IndexOf(title, '"'));
  }

  lemma TitledLayout(href: string, title: string, tokens: seq<Token>)
    requires title != []
    ensures RenderLink(href, Some(title), tokens)
      == LinkOpen + (href + ['"'] + (TitleOpen + title + "\"" + (LinkTail + LinkText(tokens) + LinkClose)))
  {
  }

  /** Once the href is cut off, the title step stops at the quote inside the
      title, so the title read back is a proper prefix of it. */
  lemma QuotedTitleCut(html: string, afterOpen: string, href: string, title: string, afterTitle: string, k: nat)
    requires k < |title| && title[k] == '"' && '"' !in title[..k]
    requires StripPrefix(html, LinkOpen) == Some(afterOpen)
    requires SplitAt(afterOpen, '"') == Some((href, TitleOpen + title + "\"" + afterTitle))
    ensures ParseLink(html).None? || ParseLink(html).value.title != Some(title)
  {
    var cut := title[..k];
    QuotedTitleReadBack(title, afterTitle, k);
    assert |cut| < |title|;
    ParseLinkTitle(html, afterOpen, href, TitleOpen + title + "\"" + afterTitle, Some(cut), title[k + 1..] + ['"'] + afterTitle);
  }

  lemma HrefCut(html: string, href: string, tail: string)
    requires '"' !in href
    requires html == LinkOpen + (href + ['"'] + tail)
    ensures StripPrefix(html, LinkOpen) == Some(href + ['"'] + tail)
    ensures SplitAt(href + ['"'] + tail, '"') == Some((href, tail))
  {
    StripPrefixOfConcat(LinkOpen, href + ['"'] + tail);
    SplitAtOfConcat(href, '"', tail);
  }

  /** The title step stops at the first quote inside the title. */
  lemma QuotedTitleReadBack(title: string, afterTitle: string, k: nat)
    requires k < |title| && title[k] == '"' && '"' !in title[..k]
    ensures ParseTitle(TitleOpen + title + "\"" + afterTitle) == Some((Some(title[..k]), title[k + 1..] + ['"'] + afterTitle))
  {
    var cut := title[..k];
    var rest := title[k + 1..] + ['"'] + afterTitle;
    TitleAttributeAtQuote(title, afterTitle, k);
    StripPrefixOfConcat(TitleOpen, cut + ['"'] + rest);
    SplitAtOfConcat(cut, '"', rest);
  }

  /** The title attribute regrouped around the quote at `k`. */
  lemma TitleAttributeAtQuote(title: string, afterTitle: string, k: nat)
    requires k < |title| && title[k] == '"'
    ensures TitleOpen + title + "\"" + afterTitle
      == TitleOpen + (title[..k] + ['"'] + (title[k + 1..] + ['"'] + afterTitle))
  {
    assert title == title[..k] + ['"'] + title[k + 1..];
  }

  /** Whatever `ParseLink` reads back carries the title its title step read. */
  lemma ParseLinkTitle(html: string, afterOpen: string, href: string, afterHref: string,
                       title: Option<string>, afterTitle: string)
    requires StripPrefix(html, LinkOpen) == Some(afterOpen)
    requires SplitAt(afterOpen, '"') == Some((href, afterHref))
    requires ParseTitle(afterHref) == Some((title, afterTitle))
    ensures ParseLink(html).None? || ParseLink(html).value.title == title
  {
    match ParseBody(afterTitle)
    case None =>
      assert ParseLink(html).None?;
    case Some(text) =>
      assert ParseLink(html) == Some(LinkParts(href, title, text));
  }

  lemma InjectedTitleLayout()
    ensures RenderLink("u", Some("x\" onclick=\"y"), [])
      == LinkOpen + ("u" + ['"'] + (TitleOpen + "x" + "\"" + (" onclick=\"y\"" + LinkTail + LinkClose)))
  {
  }

  /** After a quote-free title, anything but the fixed attributes makes the
      anchor unreadable. */
  lemma ForeignAttributeUnreadable(href: string, title: string, rest: string)
    requires '"' !in href && '"' !in title
    requires StripPrefix(rest, LinkTail).None?
    ensures ParseLink(LinkOpen + (href + ['"'] + (TitleOpen + title + "\"" + rest))) == None
  {
    var tail := TitleOpen + title + "\"" + rest;
    StripPrefixOfConcat(LinkOpen, href + ['"'] + tail);
    SplitAtOfConcat(href, '"', tail);
    TitleReadBack(title, rest);
  }

  // ---------------------------------------------------------------------------
  // renderer.code
  // ---------------------------------------------------------------------------

  /** The slice of highlight.js the renderer uses: `getLanguage(lang)` as
      membership in `known`, and `highlight(text, {language})` as a function
      that gives the highlighted HTML or `None` when it throws. */
  datatype Highlighter = Highlighter(known: set<string>, highlight: (string, string) -> Option<string>)

  const CodeOpen: string := "<pre><code class=\"hljs"
  const LanguageClass: string := " language-"
  const CodeClose: string := "</code></pre>"

  /** `renderer.code`. */
  function RenderCode(text: string, lang: Option<string>, hljs: Highlighter): (r: string)
    ensures |r| >= |CodeOpen| && r[..|CodeOpen|] == CodeOpen
  {
    var r :=
      if Truthy(lang) && lang.value in hljs.known && hljs.highlight(text, lang.value).Some? then
        CodeOpen + LanguageClass + lang.value + "\">" + hljs.highlight(text, lang.value).value + CodeClose
      else
        CodeOpen + "\">" + text + CodeClose;
    assert r[..|CodeOpen|] == CodeOpen;
    r
  }

  /** A code block as it reads back: plain text, or highlighted HTML in a
      language. */
  datatype CodeBlock = Plain(text: string) | Highlighted(lang: string, html: string)

  function ParseCode(html: string): Option<CodeBlock> {
    var afterOpen :- StripPrefix(html, CodeOpen);
    match StripPrefix(afterOpen, "\">")
    case Some(body) =>
      var text :- StripSuffix(body, CodeClose);
      Some(Plain(text))
    case None =>
      var afterClass :- StripPrefix(afterOpen, LanguageClass);
      var langSplit :- SplitAt(afterClass, '"');
      var body :- StripPrefix(langSplit.1, ">");
      var inner :- StripSuffix(body, CodeClose);
      Some(Highlighted(langSplit.0, inner))
  }

  /** The block carries a language class exactly when a language is given,
      known, and highlighting succeeds; otherwise it holds the raw text. */
  lemma CodeRoundTrip(text: string, lang: Option<string>, hljs: Highlighter)
    requires Truthy(lang) && lang.value in hljs.known && hljs.highlight(text, lang.value).Some? ==> '"' !in lang.value
    ensures ParseCode(RenderCode(text, lang, hljs)) ==
      if Truthy(lang) && lang.value in hljs.known && hljs.highlight(text, lang.value).Some?
      then Some(Highlighted(lang.value, hljs.highlight(text, lang.value).value))
      else Some(Plain(text))
  {
    var html := RenderCode(text, lang, hljs);
    if Truthy(lang) && lang.value in hljs.known && hljs.highlight(text, lang.value).Some? {
      var h := hljs.highlight(text, lang.value).value;
      var afterClass := lang.value + ['"'] + (">" + (h + CodeClose));
      assert html == CodeOpen + (LanguageClass + afterClass);
      StripPrefixOfConcat(CodeOpen, LanguageClass + afterClass);
      assert StripPrefix(LanguageClass + afterClass, "\">").None? by {
        assert (LanguageClass + afterClass)[0] != '"';
      }
      StripPrefixOfConcat(LanguageClass, afterClass);
      SplitAtOfConcat(lang.value, '"', ">" + (h + CodeClose));
      StripPrefixOfConcat(">", h + CodeClose);
      StripSuffixOfConcat(h, CodeClose);
    } else {
      assert html == CodeOpen + ("\">" + (text + CodeClose));
      StripPrefixOfConcat(CodeOpen, "\">" + (text + CodeClose));
      StripPrefixOfConcat("\">", text + CodeClose);
      StripSuffixOfConcat(text, CodeClose);
    }
  }
}

=== FILE: scan.dfy ===
/** Small scanners over generated markup. They read back what the renderers
    write, so that each renderer can be given a round-trip property. */
module Scan {
  import opened Wrappers
  import opened JsText

  /** The rest of `s` after the prefix `p`, if `s` starts with it. */
  function StripPrefix(s: string, p: string): (r: Option<string>)
    ensures r.Some? <==> |p| <= |s| && s[..|p|] == p
    ensures r.Some? ==> s == p + r.value
  {
    if |p| <= |s| && s[..|p|] == p then Some(s[|p|..]) else None
  }

  /** The part of `s` before the suffix `p`, if `s` ends with it. */
  function StripSuffix(s: string, p: string): (r: Option<string>)
    ensures r.Some? <==> |p| <= |s| && s[|s| - |p|..] == p
    ensures r.Some? ==> s == r.value + p
  {
    if |p| <= |s| && s[|s| - |p|..] == p then Some(s[..|s| - |p|]) else None
  }

  /** `s` cut at the first `c`: what comes before it and what comes after. */
  function SplitAt(s: string, c: char): (r: Option<(string, string)>)
    ensures r.Some? <==> c in s
    ensures r.Some? ==> s == r.value.0 + [c] + r.value.1 && c !in r.value.0
  {
    if c in s then
      var i := IndexOf(s, c);
      assert s == s[..i] + [c] + s[i + 1..];
      Some((s[..i], s[i + 1..]))
    else None
  }

  lemma StripPrefixOfConcat(p: string, x: string)
    ensures StripPrefix(p + x, p) == Some(x)
  {
    assert (p + x)[..|p|] == p;
  }

  /** A text that differs from `p` at some position does not start with `p`. */
  lemma StripPrefixMismatch(s: string, p: string, i: nat)
    requires i < |p| && i < |s| && s[i] != p[i]
    ensures StripPrefix(s, p).None?
  {
    if |p| <= |s| {
      assert s[..|p|][i] == s[i];
    }
  }

  lemma StripSuffixOfConcat(x: string, p: string)
    ensures StripSuffix(x + p, p) == Some(x)
  {
    assert (x + p)[|x|..] == p;
  }

  /** Cutting at a character the front part does not contain finds exactly
      that occurrence. */
  lemma SplitAtOfConcat(a: string, c: char, b: string)
    requires c !in a
    ensures SplitAt(a + [c] + b, c) == Some((a, b))
  {
    var s := a + [c] + b;
    assert s[|a|] == c;
    var i := IndexOf(s, c);
    assert s[..i] == a;
    assert s[i + 1..] == b;
  }
}

=== FILE: theme.dfy ===
/** The theme context (ThemeContext.tsx): a mode of light, dark or auto that
    is read from and written to local storage, resolved against the system
    colour-scheme preference, and toggled by the theme button. The stored
    string is cast to a mode without validation, so a foreign value survives
    as `Unknown`. The system preference (`prefers-color-scheme: dark`) and the
    storage contents are inputs. */
module Theme {
  import opened Wrappers

  datatype Theme = Light | Dark | Auto | Unknown(raw: string)

  /** A mode the type `'light' | 'dark' | 'auto'` admits. */
  predicate IsMode(t: Theme) {
    t.Light? || t.Dark? || t.Auto?
  }

  /** A theme that can stand for a non-empty stored string. */
  predicate WellFormed(t: Theme) {
    t.Unknown? ==> t.raw != [] && t.raw != "light" && t.raw != "dark" && t.raw != "auto"
  }

  const StorageKey: string := "markdown-previewer-theme"

  /** The stored form of a theme. */
  function Encode(t: Theme): string {
    match t
    case Light => "light"
    case Dark => "dark"
    case Auto => "auto"
    case Unknown(raw) => raw
  }

  /** `stored as Theme`: the string is taken as it is. */
  function Decode(s: string): Theme {
    if s == "light" then Light
    else if s == "dark" then Dark
    else if s == "auto" then Auto
    else Unknown(s)
  }

  lemma EncodeDecode(t: Theme)
    requires WellFormed(t)
    ensures Decode(Encode(t)) == t
  {
  }

  lemma DecodeEncode(s: string)
    ensures Encode(Decode(s)) == s
  {
  }

  /** The initial mode: `savedTheme || 'auto'`, with `getItem` giving `None`
      for a missing key. */
  function InitialTheme(stored: Option<string>): (r: Theme)
    ensures WellFormed(r)
    ensures stored.None? || stored == Some([]) ==> r == Auto
    ensures stored.Some? && stored.value != [] ==> Encode(r) == stored.value
  {
    if stored.Some? && stored.value != [] then Decode(stored.value) else Auto
  }

  /** `getSystemTheme()`. */
  function SystemTheme(prefersDark: bool): (r: Theme)
    ensures r.Light? || r.Dark?
    ensures r.Dark? <==> prefersDark
  {
    if prefersDark then Dark else Light
  }

  /** `actualTheme`: auto follows the system, anything else is itself. */
  function ActualTheme(t: Theme, prefersDark: bool): (r: Theme)
    ensures !r.Auto?
    ensures IsMode(t) ==> r.Light? || r.Dark?
    ensures t.Auto? ==> r == SystemTheme(prefersDark)
    ensures !t.Auto? ==> r == t
  {
    if t.Auto? then SystemTheme(prefersDark) else t
  }

  /** The other concrete theme. */
  function Opposite(t: Theme): Theme {
    if t.Dark? then Light else Dark
  }

  /** `toggleTheme`: light and dark swap; auto, and anything that is not
      light or dark, goes to the opposite of the system theme. */
  function ToggleTheme(t: Theme, prefersDark: bool): (r: Theme)
    ensures r.Light? || r.Dark?
    ensures t.Light? ==> r == Dark
    ensures t.Dark? ==> r == Light
    ensures !t.Light? && !t.Dark? ==> r == Opposite(SystemTheme(prefersDark))
  {
    match t
    case Light => Dark
    case Dark => Light
    case _ => if SystemTheme(prefersDark).Light? then Dark else Light
  }

  /** `updateStatusBar(actualTheme === 'dark')`. */
  function StatusBarDark(t: Theme, prefersDark: bool): (r: bool)
    ensures r <==> t.Dark? || (t.Auto? && prefersDark)
  {
    ActualTheme(t, prefersDark) == Dark
  }

  // ---------------------------------------------------------------------------
  // the provider: mode plus storage
  // ---------------------------------------------------------------------------

  /** The provider's `theme` state and the local storage it writes. */
  datatype Provider = Provider(theme: Theme, storage: map<string, string>)

  /** What `getItem(StorageKey)` returns. */
  function Stored(storage: map<string, string>): Option<string> {
    if StorageKey in storage then Some(storage[StorageKey]) else None
  }

  /** The effect run whenever `theme` changes: `setItem(StorageKey, theme)`. */
  function Persist(storage: map<string, string>, t: Theme): (r: map<string, string>)
    ensures Stored(r) == Some(Encode(t))
    ensures forall k :: k != StorageKey ==> (k in r <==> k in storage)
    ensures forall k :: k != StorageKey && k in storage ==> r[k] == storage[k]
  {
    storage[StorageKey := Encode(t)]
  }

  /** The stored mode always reads back as the current mode. */
  predicate Consistent(p: Provider) {
    WellFormed(p.theme) && InitialTheme(Stored(p.storage)) == p.theme
  }

  /** Mounting: read the stored mode, then the persistence effect writes it. */
  function Mount(storage: map<string, string>): (r: Provider)
    ensures Consistent(r)
    ensures r.theme == InitialTheme(Stored(storage))
  {
    var t := InitialTheme(Stored(storage));
    EncodeDecode(t);
    Provider(t, Persist(storage, t))
  }

  /** `setTheme(mode)` followed by the persistence effect. */
  function SetTheme(p: Provider, t: Theme): (r: Provider)
    requires IsMode(t)
    ensures Consistent(r) && r.theme == t
  {
    Provider(t, Persist(p.storage, t))
  }

  /** The theme button: `toggleTheme()` followed by the persistence effect. */
  function Toggle(p: Provider, prefersDark: bool): (r: Provider)
    ensures Consistent(r)
    ensures ActualTheme(p.theme, prefersDark).Light? ==> ActualTheme(r.theme, prefersDark).Dark?
    ensures ActualTheme(p.theme, prefersDark).Dark? ==> ActualTheme(r.theme, prefersDark).Light?
  {
    SetTheme(p, ToggleTheme(p.theme, prefersDark))
  }

  /** The media-query listener: in auto mode it sets the mode to auto, the
      value it already has. React skips a state update to the value it already
      holds, so the listener changes nothing and need not cause a render; the
      resolved theme is recomputed only when the provider renders for another
      reason. */
  function OnSystemChange(p: Provider): (r: Provider)
    ensures r == p
  {
    if p.theme.Auto? then p.(theme := Auto) else p
  }

  // ---------------------------------------------------------------------------
  // properties
  // ---------------------------------------------------------------------------

  /** Saving a mode and loading it back gives the same mode, and no other
      storage key is touched. */
  lemma PersistRoundTrip(storage: map<string, string>, t: Theme)
    requires WellFormed(t)
    ensures InitialTheme(Stored(Persist(storage, t))) == t
  {
    EncodeDecode(t);
  }

  /** With a fixed system preference, toggling always flips the resolved
      theme and never lands on auto. */
  lemma ToggleFlipsActual(t: Theme, prefersDark: bool)
    requires IsMode(t)
    ensures ActualTheme(ToggleTheme(t, prefersDark), prefersDark) == Opposite(ActualTheme(t, prefersDark))
    ensures !ToggleTheme(t, prefersDark).Auto?
  {
  }

  /** Two toggles undo each other on light and dark; from auto they land on
      the system theme, not back on auto. */
  lemma ToggleTwice(t: Theme, prefersDark: bool)
    ensures t.Light? || t.Dark? ==> ToggleTheme(ToggleTheme(t, prefersDark), prefersDark) == t
    ensures t.Auto? ==> ToggleTheme(ToggleTheme(t, prefersDark), prefersDark) == SystemTheme(prefersDark)
  {
  }

  /** Every consistent provider stays consistent under every change. */
  lemma ChangesKeepStorageInStep(p: Provider, mode: Theme, prefersDark: bool)
    requires Consistent(p) && IsMode(mode)
    ensures Consistent(SetTheme(p, mode))
    ensures Consistent(Toggle(p, prefersDark))
    ensures Consistent(OnSystemChange(p))
  {
  }

  /** The status bar is dark exactly when the resolved theme is dark; in auto
      mode that is exactly when the system prefers dark. */
  lemma StatusBarFollowsActual(t: Theme, prefersDark: bool)
    ensures StatusBarDark(t, prefersDark) <==> ActualTheme(t, prefersDark).Dark?
    ensures t.Auto? ==> (StatusBarDark(t, prefersDark) <==> prefersDark)
  {
  }

  // ---------------------------------------------------------------------------
  // useTheme
  // ---------------------------------------------------------------------------

  const OutsideProvider: string := "useTheme must be used within a ThemeProvider"

  /** `useTheme()`: the context value, or the error thrown outside a provider. */
  function UseTheme<C>(context: Option<C>): (r: Result<C, string>)
    ensures r.Failure? <==> context.None?
    ensures r.Failure? ==> r.error == OutsideProvider
    ensures r.Success? ==> r.value == context.value
  {
    match context
    case None => Failure(OutsideProvider)
    case Some(c) => Success(c)
  }
}

=== FILE: theme_toggle.dfy ===
/** The theme button and its drop-down (ThemeToggle.tsx): the label, the
    icon, which option is highlighted, and what each click does. */
module ThemeToggle {
  import opened Wrappers
  import opened Theme

  /** `getThemeLabel()`, from the mode and the resolved theme. */
  function Label(theme: Theme, actual: Theme): (r: string)
    ensures IsMode(theme) ==> ReadLabel(r).Some?
    ensures ReadLabel(r).Some? ==> ReadLabel(r).value.0 == theme
    ensures theme.Auto? ==> ReadLabel(r) == Some((Auto, if actual.Light? then Light else Dark))
  {
    match theme
    case Light => "浅色主题"
    case Dark => "深色主题"
    case Auto =>
      var shown := "自动主题 (" + (if actual.Light? then "浅色" else "深色") + ")";
      assert shown == if actual.Light? then "自动主题 (浅色)" else "自动主题 (深色)";
      shown
    case Unknown(_) => "主题"
  }

  datatype Icon = Sun | Moon | NoIcon

  /** `getThemeIcon()`: decided by the resolved theme alone. */
  function IconFor(actual: Theme): (r: Icon)
    ensures r == Sun <==> actual.Light?
    ensures r == Moon <==> actual.Dark?
  {
    match actual
    case Light => Sun
    case Dark => Moon
    case _ => NoIcon
  }

  /** The three drop-down options, in order. */
  const Options: seq<Theme> := [Light, Dark, Auto]

  /** The `active` class of an option. */
  predicate Active(theme: Theme, i: nat)
    requires i < |Options|
    ensures Active(theme, i) <==>
      || (i == 0 && theme.Light?)
      || (i == 1 && theme.Dark?)
      || (i == 2 && theme.Auto?)
  {
    theme == Options[i]
  }

  /** A click on the main button or on option `i`. */
  datatype Click = MainButton | Choose(i: nat)

  /** The provider after a click. */
  function OnClick(p: Provider, c: Click, prefersDark: bool): (r: Provider)
    requires c.Choose? ==> c.i < |Options|
    ensures Consistent(r)
    ensures c.Choose? ==> r.theme == Options[c.i] && Active(r.theme, c.i)
    ensures c.MainButton? ==> r.theme == ToggleTheme(p.theme, prefersDark)
  {
    match c
    case MainButton => Toggle(p, prefersDark)
    case Choose(i) => SetTheme(p, Options[i])
  }

  // ---------------------------------------------------------------------------
  // properties
  // ---------------------------------------------------------------------------

  /** For a mode the type admits exactly one option is highlighted, the one
      equal to the mode; for a foreign stored value none is. */
  lemma ExactlyOneActive(theme: Theme)
    ensures IsMode(theme) ==>
      exists i :: 0 <= i < |Options| && Active(theme, i) &&
        forall j :: 0 <= j < |Options| && j != i ==> !Active(theme, j)
    ensures !IsMode(theme) ==> forall j :: 0 <= j < |Options| ==> !Active(theme, j)
  {
    if theme.Light? { assert Active(theme, 0); }
    else if theme.Dark? { assert Active(theme, 1); }
    else if theme.Auto? { assert Active(theme, 2); }
  }

  /** Reads a label back as the mode and resolved theme it shows. */
  function ReadLabel(shown: string): Option<(Theme, Theme)> {
    if shown == "浅色主题" then Some((Light, Light))
    else if shown == "深色主题" then Some((Dark, Dark))
    else if shown == "自动主题 (浅色)" then Some((Auto, Light))
    else if shown == "自动主题 (深色)" then Some((Auto, Dark))
    else None
  }

  /** Round trip: the label of every mode reads back as that mode and its
      resolved theme. */
  lemma LabelRoundTrip(t: Theme, prefersDark: bool)
    requires IsMode(t)
    ensures ReadLabel(Label(t, ActualTheme(t, prefersDark))) == Some((t, ActualTheme(t, prefersDark)))
  {
    if t.Auto? {
      if prefersDark {
        assert Label(t, ActualTheme(t, prefersDark)) == "自动主题 (深色)";
      } else {
        assert Label(t, ActualTheme(t, prefersDark)) == "自动主题 (浅色)";
      }
    }
  }

  /** Hence distinct visible states never share a label. */
  lemma LabelIdentifiesState(t1: Theme, t2: Theme, dark1: bool, dark2: bool)
    requires IsMode(t1) && IsMode(t2)
    requires Label(t1, ActualTheme(t1, dark1)) == Label(t2, ActualTheme(t2, dark2))
    ensures t1 == t2
    ensures ActualTheme(t1, dark1) == ActualTheme(t2, dark2)
  {
    LabelRoundTrip(t1, dark1);
    LabelRoundTrip(t2, dark2);
  }

  /** The label in auto mode shows the resolved theme. */
  lemma AutoLabelShowsSystem(prefersDark: bool)
    ensures Label(Auto, ActualTheme(Auto, prefersDark))
      == if prefersDark then "自动主题 (深色)" else "自动主题 (浅色)"
  {
  }

  /** The icon never depends on the mode beyond the resolved theme: in auto
      mode it follows the system, and it shows the moon exactly when the
      status bar is dark. */
  lemma IconFollowsActualTheme(t: Theme, prefersDark: bool)
    ensures t.Auto? ==> IconFor(ActualTheme(t, prefersDark)) == (if prefersDark then Moon else Sun)
    ensures IconFor(ActualTheme(t, prefersDark)) == Moon <==> StatusBarDark(t, prefersDark)
    ensures IsMode(t) ==> IconFor(ActualTheme(t, prefersDark)) != NoIcon
  {
  }
}

=== FILE: toolbar.dfy ===
/** The formatting toolbar (Toolbar.tsx): a constant table of buttons, each
    inserting a snippet with a caret offset and advertising a keyboard
    shortcut, plus an optional preview toggle. The table is written out here
    as the toolbar writes it, independently of the key handler's switches, so
    that their agreement is something proved rather than assumed. */
module Toolbar {
  import opened Wrappers
  import opened JsText
  import opened EditorText
  import opened EditorDocument
  import opened EditorKeys

  /** One entry of `toolbarItems` (the icon glyph is presentation only). */
  datatype Item = Item(title: string, snippet: string, cursorOffset: int, shortcut: string)

  const Items: seq<Item> := [
    Item("粗体", "**粗体文本**", -4, "Ctrl+B"),
    Item("斜体", "*斜体文本*", -4, "Ctrl+I"),
    Item("标题", "# 标题", 0, "Ctrl+H"),
    Item("链接", "[链接文本](https://example.com)", -21, "Ctrl+K"),
    Item("图片", "![图片描述](图片链接)", -6, "Ctrl+Shift+I"),
    Item("代码块", "```\n代码\n```", -4, "Ctrl+Shift+C"),
    Item("引用", "> 引用文本", 0, "Ctrl+Q"),
    Item("无序列表", "- 列表项", 0, "Ctrl+U"),
    Item("有序列表", "1. 列表项", 0, "Ctrl+O"),
    Item("表格", "| 列1 | 列2 | 列3 |\n|------|------|------|\n| 内容 | 内容 | 内容 |", 0, "Ctrl+T"),
    Item("分割线", "\n---\n", 0, "Ctrl+R")
  ]

  /** A button's `action`: the `onInsertText` call it makes. */
  function Action(item: Item): Request {
    Request(item.snippet, item.cursorOffset)
  }

  /** Clicking a button, with `onInsertText` bound to the editor's
      `insertTextAtCursor`. */
  function Click(d: Doc, textarea: Option<Selection>, i: nat): (r: Insertion)
    requires i < |Items|
    ensures r.doc.path == d.path && r.doc.modified == d.modified
    ensures textarea.Some? && ValidSelection(textarea.value, |d.content|) ==>
      && r.doc.content == d.content[..textarea.value.start] + Items[i].snippet + d.content[textarea.value.end..]
      && r.caret.Some? && textarea.value.start <= r.caret.value <= textarea.value.start + |Items[i].snippet|
  {
    OffsetsInsideSnippets();
    var req := Action(Items[i]);
    InsertTextAtCursor(d, textarea, req.text, req.cursorOffset)
  }

  /** The buttons on the left: the eleven items, then the preview toggle only
      when an `onTogglePreview` callback is supplied. */
  datatype Button = Insert(index: nat) | TogglePreview(active: bool)

  function Buttons(hasTogglePreview: bool, showPreview: bool): (r: seq<Button>)
    ensures |r| == |Items| + (if hasTogglePreview then 1 else 0)
    ensures forall i :: 0 <= i < |Items| ==> r[i] == Insert(i)
    ensures (exists j :: 0 <= j < |r| && r[j].TogglePreview?) <==> hasTogglePreview
  {
    var items := seq(|Items|, i requires 0 <= i < |Items| => Insert(i));
    var r := items + (if hasTogglePreview then [TogglePreview(showPreview)] else []);
    assert forall j :: 0 <= j < |items| ==> !r[j].TogglePreview?;
    assert hasTogglePreview ==> r[|Items|].TogglePreview?;
    r
  }

  // ---------------------------------------------------------------------------
  // shortcut labels
  // ---------------------------------------------------------------------------

  /** The key event a label such as `Ctrl+B` or `Ctrl+Shift+I` names: Ctrl,
      Shift when spelled out, and the letter as the browser reports it, in lower
      case or, with Shift or Caps Lock, in upper case as the label writes it. */
  function ShortcutEvent(shortcut: string, upper: bool): Option<KeyEvent> {
    if |shortcut| == 12 && shortcut[..11] == "Ctrl+Shift+" then
      Some(KeyEvent(if upper then shortcut[11..] else Lower(shortcut[11..]), true, false, true))
    else if |shortcut| == 6 && shortcut[..5] == "Ctrl+" then
      Some(KeyEvent(if upper then shortcut[5..] else Lower(shortcut[5..]), true, false, false))
    else None
  }

  // ---------------------------------------------------------------------------
  // properties
  // ---------------------------------------------------------------------------

  /** Eleven buttons, in this order. */
  lemma ItemOrder()
    ensures |Items| == 11
    ensures seq(|Items|, i requires 0 <= i < |Items| => Items[i].title)
      == ["粗体", "斜体", "标题", "链接", "图片", "代码块", "引用", "无序列表", "有序列表", "表格", "分割线"]
  {
  }

  /** Every offset puts the caret inside the snippet it belongs to. */
  lemma OffsetsInsideSnippets()
    ensures forall i :: 0 <= i < |Items| ==> -|Items[i].snippet| <= Items[i].cursorOffset <= 0
  {
  }

  /** Every advertised shortcut is a combination the key handler serves, and
      pressing it (with Ctrl or Cmd, the letter in either case) does to the
      document exactly what clicking the button does. */
  lemma ShortcutsAgreeWithKeyHandler(d: Doc, textarea: Option<Selection>, i: nat, cmd: bool, upper: bool)
    requires i < |Items|
    ensures ShortcutEvent(Items[i].shortcut, upper).Some?
    ensures
      var e := ShortcutEvent(Items[i].shortcut, upper).value;
      var e' := if cmd then e.(ctrlKey := false, metaKey := true) else e;
      var reqs := HandleKeyDown(e').requests;
      && reqs != []
      && reqs[|reqs| - 1] == Action(Items[i])
      && PressKey(d, textarea, e') == Click(d, textarea, i)
  {
    var e := ShortcutEvent(Items[i].shortcut, upper).value;
    var e' := if cmd then e.(ctrlKey := false, metaKey := true) else e;
    MetaActsAsCtrl(e.key, e.shiftKey);
    var reqs := HandleKeyDown(e').requests;
    assert reqs != [] && reqs[|reqs| - 1] == Action(Items[i]) by {
      ShortcutTable(i, upper);
    }
    LastRequestWins(d, textarea, reqs, Insertion(d, None));
  }

  /** The key handler's requests for each label, item by item. */
  lemma ShortcutTable(i: nat, upper: bool)
    requires i < |Items|
    ensures ShortcutEvent(Items[i].shortcut, upper).Some?
    ensures
      var reqs := HandleKeyDown(ShortcutEvent(Items[i].shortcut, upper).value).requests;
      reqs != [] && reqs[|reqs| - 1] == Action(Items[i])
  {
    var e := ShortcutEvent(Items[i].shortcut, upper).value;
    var k := Lower(e.key);
    if i == 0 { assert k == "b"; }
    else if i == 1 { assert k == "i"; }
    else if i == 2 { assert k == "h"; }
    else if i == 3 { assert k == "k"; }
    else if i == 4 { assert k == "i"; }
    else if i == 5 { assert k == "c"; }
    else if i == 6 { assert k == "q"; }
    else if i == 7 { assert k == "u"; }
    else if i == 8 { assert k == "o"; }
    else if i == 9 { assert k == "t"; }
    else { assert k == "r"; }
  }
}

=== FILE: wrappers.dfy ===
/** Failure-compatible wrappers used across the model: `Option` stands for a
    JavaScript value that may be `null`/`undefined`, `Result` for a call that
    either returns or throws. */
module Wrappers {

  datatype Option<+T> = None | Some(value: T) {

    predicate IsFailure() {
      None?
    }

    function PropagateFailure<U>(): Option<U>
      requires None?
    {
      None
    }

    function Extract(): T
      requires Some?
    {
      value
    }

    function GetOr(default: T): T {
      match this
      case Some(v) => v
      case None => default
    }
  }

  datatype Result<+R, +E> = Success(value: R) | Failure(error: E) {

    predicate IsFailure() {
      Failure?
    }

    function PropagateFailure<U>(): Result<U, E>
      requires Failure?
    {
      Failure(error)
    }

    function Extract(): R
      requires Success?
    {
      value
    }
  }

  /** A string that may be absent is truthy in JavaScript exactly when it is
      present and not empty. */
  predicate Truthy(s: Option<string>) {
    s.Some? && s.value != []
  }
}
